=== FILE: README.md ===
# SQLite usage store and plugin bridge, modelled in Dafny

This project models the persistence layer of the proxy's usage accounting.
It has two parts.

The first part is the `usage_records` table and the `SQLiteStore` operations on it:
- `NewSQLiteStore`, `EnsureSchema` and `Close` with their nil-handle guards;
- `InsertRecord`, an `INSERT OR IGNORE` on the unique `dedup_key` column;
- `PersistSnapshot`, which inserts every detail of a nested statistics snapshot inside one transaction and counts each as added or skipped;
- `LoadAll`, which reads the table's rows in `ORDER BY timestamp` order, skips rows whose timestamp does not parse, and groups the rest into `APIs[apiKey].Models[model].Details`. The rows it reads are required to be the table's rows in ascending timestamp text (`SelectedInOrder`), and a scan or iteration failure is a position in that cursor.

The second part is `SQLitePlugin`:
- `HandleUsage` normalises one usage event into at most one insert request;
- `LoadAndMerge` restores persisted history into the in-memory statistics.

How the model is built:
- The table is a map from dedup key to row.
- A nil pointer is `None`.
- Every driver call that can fail takes an explicit fault argument.
- Go's unspecified map iteration order is a `Walk`: any order that visits every key once.
- The helpers that live outside the two files are fields of the `Helpers` and `BridgeEnv` parameters, and the properties are stated relative to them. These helpers are `dedupKey`, time formatting and parsing, `normaliseDetail`, `resolveAPIIdentifier`, `resolveSuccess` and `MergeSnapshot`.

Files:
- `wrappers.dfy`: the `Option` type.
- `map_sums.dfy`: order-free sums over maps.
- `usage_types.dfy`: details, snapshots, rows, helpers and errors.
- `snapshot_walk.dfy`: flattening a snapshot in a Go range order.
- `sqlite_store.dfy`: the store.
- `sqlite_plugin.dfy`: the plugin.
- `round_trip.dfy`: persisting a snapshot and loading it back.
- `time_text.dfy`: the fraction of a second in the stored timestamp text, and its text order.

Behaviour of the code worth knowing; the model follows the code in each:
- When an insert fails, `PersistSnapshot` returns the counts reached so far (line 300); they are (0, 0) when the first insert fails. The nil guard (line 262) and begin, prepare and commit failures also return (0, 0). After a prepare or insert failure the deferred `tx.Rollback()` (line 269) discards the inserts. The nil guard and a begin failure have no transaction, and after a failed commit the transaction is already finished, so there `Rollback` does nothing.
- When a scan or iteration fails, `LoadAll` returns the snapshot built from the rows read so far together with the error (lines 196 and 243). `LoadAndMerge` never merges it, because it stops on any error.
- An event whose model is already the string `"unknown"` is also stored as `"unknown"`, so the stored model is `"unknown"` when the event's model is empty or `"unknown"`. `HandleUsage` states the two cases: an empty model becomes `"unknown"`, and a non-empty one is kept.
- The doc comment of `NewSQLiteStore` (line 46) says an empty path defaults to `<auth-dir>/usage.db`. The code (lines 55-57) returns the error "database path cannot be empty" instead, and `NewSQLiteStore` models that error. The explicit error message suggests the comment is stale rather than the code wrong.

## Model

| member | source | states |
|---|---|---|
| SQLiteStore.NewSQLiteStore | internal/usage/sqlite_store.go:54-89 | an empty path is rejected with no store; otherwise the store opens exactly when the driver does, holding the file's existing rows, each under its own dedup key |
| SQLiteStore.EnsureSchema | internal/usage/sqlite_store.go:98-109 | a nil receiver or nil db reports "not initialized"; the call succeeds exactly when the handle is open and the DDL succeeds |
| SQLiteStore.ToRow | internal/usage/sqlite_store.go:127-132 | the stored row carries the dedup key, the API key and model, the detail's time in the `format` text, `failed` is 1 exactly when the detail failed and 0 exactly when it did not, and source, auth index and all five token counts are copied verbatim |
| SQLiteStore.InsertOrIgnore | internal/usage/sqlite_store.go:34-39 | the unique index on `dedup_key`: the key set gains the row's key, existing rows are never overwritten, and a new key holds the new row |
| SQLiteStore.InsertRecord | internal/usage/sqlite_store.go:122-154 | uninitialised handle: error and store untouched; any error leaves the table as it was; a present key leaves the table unchanged without error; a fresh key adds exactly one row (size + 1) with the detail's fields while all other rows stay |
| SQLiteStore.InsertRecordIdempotent | internal/usage/sqlite_store.go:134-147 | inserting the same record a second time succeeds and leaves the store exactly as the first insert left it |
| SQLiteStore.InsertAll | internal/usage/sqlite_store.go:283-311 | the statement loop counts every visited triple as either added or skipped, adds exactly their keys, never changes an existing row, and keeps every row under its own key |
| SQLiteStore.InsertAllAdded | internal/usage/sqlite_store.go:303-308 | `added` is the number of distinct dedup keys among the visited triples that the table did not already hold |
| SQLiteStore.InsertAllRows | internal/usage/sqlite_store.go:286-298 | every row the loop added is the row of the first visited triple carrying that key |
| SQLiteStore.Transact | internal/usage/sqlite_store.go:265-317 | the error is the first failing step in the order begin, prepare, inserts, commit; on any error the table is left as it was; begin, prepare and commit failures report (0, 0); an insert failure at position i reports counts summing to i; on success the table is that of the full insert loop |
| SQLiteStore.PersistSnapshot | internal/usage/sqlite_store.go:260-318 | nil guard returns (0, 0) and "not initialized"; on error the store is unchanged; on success added + skipped is the snapshot's total detail count, added is the number of its dedup keys not yet stored, the key set becomes old keys plus snapshot keys, and old rows are kept |
| SQLiteStore.PersistKnown | internal/usage/sqlite_store.go:303-308 | when every dedup key of the snapshot is already stored, the call succeeds with added 0, skipped equal to the detail count, and the store unchanged |
| SQLiteStore.PersistTwice | internal/usage/sqlite_store.go:272-277 | a second persist of the same snapshot, in any iteration order, adds nothing, skips every detail and leaves the table as the first call left it |
| SQLiteStore.PersistCountsWalkFree | internal/usage/sqlite_store.go:283-285 | the error, the added and skipped counts, and the stored key set do not depend on the order in which Go ranges over the snapshot's maps |
| SQLiteStore.PersistTableWalkFree | internal/usage/sqlite_store.go:283-298 | when no two details share a dedup key, the stored rows themselves do not depend on the iteration order |
| SQLiteStore.InsertAllOrderFree | internal/usage/sqlite_store.go:272-298 | two insert loops over the same triples in different orders build the same table when no two triples share a dedup key |
| SnapshotWalk.FlattenContents | internal/usage/sqlite_store.go:283-285 | the three nested range loops visit exactly the (API key, model, detail) triples that the snapshot holds |
| SnapshotWalk.FlattenLength | internal/usage/sqlite_store.go:283-285 | the nested range loops visit as many triples as the snapshot has details in total |
| SQLiteStore.ParseTimestamp | internal/usage/sqlite_store.go:199-206 | the nanosecond layout wins when it parses; otherwise the result is that of the second-precision layout |
| SQLiteStore.Decode | internal/usage/sqlite_store.go:199-220 | a row is skipped exactly when neither layout parses its timestamp; otherwise the detail copies source, auth index and tokens, and `Failed` is `failed != 0` |
| SQLiteStore.RowRoundTrip | internal/usage/sqlite_store.go:199-220 | a row written for a detail decodes back to that detail when the timestamp format reads back |
| SQLiteStore.GroupBuckets | internal/usage/sqlite_store.go:223-239 | bucket `APIs[a].Models[m]` holds exactly the loadable rows with API key a and model m, in cursor order |
| SQLiteStore.GroupNonEmpty | internal/usage/sqlite_store.go:223-239 | the grouping never creates an API entry without models or a model bucket without details |
| SQLiteStore.GroupCount | internal/usage/sqlite_store.go:199-239 | the loaded total equals the number of rows whose timestamp parses |
| SQLiteStore.GroupSpec | internal/usage/sqlite_store.go:186-240 | a bucket exists exactly when some loadable row belongs in it, holds those rows' details in cursor order, no bucket is empty, and the total is the number of loadable rows |
| SQLiteStore.Fetched | internal/usage/sqlite_store.go:186-244 | the row loop reads every row and succeeds exactly when neither a scan nor an iteration failure falls inside the cursor; otherwise the first failure wins: an iteration failure before row i reports "error iterating" after i rows, and a scan failure at row i reports "failed to scan" after i rows |
| SQLiteStore.LoadAll | internal/usage/sqlite_store.go:164-247 | on a cursor that selects the table's rows in timestamp order: nil guard and query error return an empty snapshot with the error; otherwise the error is the loop's and the snapshot groups exactly the rows read before it; bucket contents, non-emptiness and the total follow the reference definitions |
| SQLiteStore.LoadAllComplete | internal/usage/sqlite_store.go:186-246 | a load without error groups every row of the cursor |
| SQLiteStore.BucketRowsOfTable | internal/usage/sqlite_store.go:177-239 | the rows that feed bucket (a, m) are table rows, a table key with API key a, model m and a parsable timestamp is among them exactly when it is loadable, and they are free of repeats and ascend in timestamp text |
| SQLiteStore.LoadAllFromTable | internal/usage/sqlite_store.go:177-246 | a complete load decodes, one for one and in ascending timestamp text, exactly the table's loadable rows of each API key and model, each once |
| SQLiteStore.LoadAllCount | internal/usage/sqlite_store.go:177-246 | a complete load holds as many details as the table has rows whose timestamp parses |
| SQLiteStore.Close | internal/usage/sqlite_store.go:324-329 | a nil receiver or nil db closes without error; otherwise the error is the driver's |
| SQLitePlugin.HandleUsage | internal/usage/sqlite_plugin.go:38-93 | no request when the plugin or store is nil or statistics are disabled, exactly one otherwise; the model is the event's or `"unknown"` when empty; the API key is the event's or the context-resolved one when empty; failed is the event's flag or the context's failure; a zero timestamp becomes now; source, auth index and normalised tokens are copied |
| SQLitePlugin.Dispatch | internal/usage/sqlite_plugin.go:84-92 | the background write runs against the plugin's store at the time it runs: a failed write or an uninitialised store leaves it as it was; a successful one adds exactly the request's dedup key, keeps every other row, and stores the request's row when the key was new |
| SQLitePlugin.DispatchesAccumulate | internal/usage/sqlite_plugin.go:84-92 | two successive writes store both dedup keys and lose no earlier row |
| SQLitePlugin.FailedEventStoredAsFailed | internal/usage/sqlite_plugin.go:62-92 | an event marked failed is stored with `failed = 1` when its key is new |
| SQLitePlugin.RedeliveryStoredOnce | internal/usage/sqlite_plugin.go:38-93 | delivering the same event twice, with the same context and clock, stores it once |
| SQLitePlugin.UntimedRedeliveryStoredTwice | internal/usage/sqlite_plugin.go:48-92 | with a dedup key that tells timestamps apart, two deliveries of an event without a timestamp handled at different instants are stored under two different keys, as two new rows when neither key was stored |
| SQLitePlugin.LoadAndMerge | internal/usage/sqlite_plugin.go:103-120 | nil plugin, store or stats: nothing is loaded or merged; a `LoadAll` error is returned and nothing is merged; a merge happens exactly when the load succeeds, and it merges the grouping of all rows |
| SQLitePlugin.PartialLoadNeverMerged | internal/usage/sqlite_plugin.go:108-111 | a load that stops at a scan or iteration error returns an error and merges nothing |
| RoundTrip.GroupTriples | internal/usage/sqlite_store.go:199-239 | a triple is in the loaded snapshot exactly when some row with its API key and model decodes to its detail |
| RoundTrip.LoadedWasPersisted | internal/usage/sqlite_store.go:164-311 | after persisting into an empty table, when the snapshot's timestamps read back, every loaded triple is one of the snapshot's |
| RoundTrip.PersistedIsLoaded | internal/usage/sqlite_store.go:164-311 | after persisting into an empty table with non-colliding keys, every triple of the snapshot whose timestamps read back is loaded back |
| RoundTrip.PersistThenLoad | internal/usage/sqlite_store.go:164-318 | when the snapshot's timestamps read back, loading what a persist wrote to an empty table succeeds and gives back exactly the snapshot's triples, whatever the iteration order |
| RoundTrip.ChronologicalBuckets | internal/usage/sqlite_store.go:128-177 | when the snapshot's timestamps read back and their texts sort as the times do, every bucket loaded from what a persist wrote is in chronological order |
| TimeText.TrimmedStampOutOfOrder | internal/usage/sqlite_store.go:128-177 | with the trimmed `RFC3339Nano` fraction, the text of half a second past a whole second sorts before the text of the whole second, and not the other way round |
| TimeText.FixedStampChronological | internal/usage/sqlite_store.go:128-177 | with a nine-digit fraction, text order within one second is exactly nanosecond order |
| TimeText.FixedStampOrder | internal/usage/sqlite_store.go:128-177 | with a nine-digit fraction after whole-second texts of one width, stamps compare as their seconds when those differ and as their nanoseconds within one second |

## Left out

- Opening the database: the connection string, the WAL and busy-timeout pragmas, the connection-pool settings, tilde expansion and `MkdirAll` (sqlite_store.go lines 59-83) are file-system and driver I/O. They are folded into one `openFails` argument. The rows the file already holds are the `existing` argument, each under its own dedup key because `dedup_key` is a unique column. The stored `path` field is not modelled.
- Schema DDL: executing the `CREATE ... IF NOT EXISTS` statements is modelled only as success or failure. Its one effect on the data, the unique index on `dedup_key`, is what `InsertOrIgnore` models.
- The `id` and `created_at` columns are assigned by SQLite and never read back, so they are left out.
- RFC 3339 formatting and parsing are parameters: `format`, `parseNano` and `parseSeconds`. The round-trip lemmas assume only that the nanosecond layout reads back the formatted text of each timestamp in the snapshot (`FormatReadsBack` on `SnapshotTimes`). They assume nothing about other times.
- Years outside 0000-9999: Go's `Format` writes a year above 9999 with five or more digits and a year before 0000 with a sign, while `time.Parse` reads exactly four year digits, so a detail with such a timestamp is written (lines 142 and 293) and then skipped by `LoadAll` (lines 199-205). The model keeps that behaviour through `Decode`, but the round-trip lemmas say nothing about such a snapshot, and the year range itself is not modelled.
- The text order of `ORDER BY timestamp` is `TextLe`, a code-point order (SQLite's default `BINARY` collation). The cursor SQLite returns is a parameter of `LoadAll`, which requires it to be `SelectedInOrder`: exactly the table's rows, each once, in ascending timestamp text. Ties between equal timestamps may come in any order.
- `dedupKey`, `normaliseDetail`, `resolveAPIIdentifier`, `resolveSuccess` and `MergeSnapshot` are defined outside these two files. They are function parameters, and the properties hold for any of them. The round-trip lemmas additionally assume that distinct details have distinct dedup keys.
- `statisticsEnabled` is an atomic flag. `HandleUsage` takes its value at the time of the call as a boolean.
- `time.Now()` is the `now` parameter.
- The goroutine, `context.Background()` and logrus logging in `HandleUsage` and `LoadAndMerge` are left out. `HandleUsage` returns the insert request it would dispatch, and `Dispatch` models the write, against the store the plugin holds when it runs, with its error dropped. Interleavings of concurrent writes are not modelled beyond `DispatchesAccumulate`.
- Driver errors are not distinguished beyond their kind (`StoreError`). Error message text is not modelled.
- A failed `tx.Commit()`: the model leaves the table as it was, which assumes SQLite discards a transaction whose commit fails. database/sql marks the transaction done either way, so the deferred `Rollback` at line 269 cannot undo a partly applied commit. How the driver behaves there is not modelled.
- `Close` only reports an error. What a closed handle does on later calls depends on the driver and is not modelled.
- `NewSQLitePlugin` only builds the struct, which is the `Plugin` constructor.
- Time zones: `UTC()` before formatting is part of the `format` parameter. A time is an instant, and its location is not modelled.
- Integer widths: token counts are unbounded `int`, since the store copies them without arithmetic. The `added` and `skipped` counters cannot overflow for any snapshot that fits in memory.
- `TimeText` models only the fraction-of-second part of the stored text. The date and time before it are fixed-width and a common prefix within one second, and the time zone is always `Z` after `UTC()`.

## Findings

| source | as written | input that shows it | evidently intended | confidence | as-written member | corrected member |
|---|---|---|---|---|---|---|
| internal/usage/sqlite_store.go:128-177 | timestamps are stored as `RFC3339Nano` text, which drops trailing zeros of the fraction, and `LoadAll` orders by that text | `…T15:04:05.5Z` (half a second later) sorts before `…T15:04:05Z`, because `.` sorts before `Z` | `ORDER BY timestamp ASC` returns each bucket's details in chronological order | not executed | TimeText.TrimmedStampOutOfOrder | TimeText.FixedStampChronological |

`RoundTrip.ChronologicalBuckets` states the intended order for the whole load, for snapshots whose formatted timestamps sort as the times do (`FormatKeepsOrder` on `SnapshotTimes`). `TimeText.FixedStampOrder` shows that a nine-digit fraction gives such an order, provided the whole-second texts before it are of one width and sort as their seconds do. RFC 3339's fixed-width `2006-01-02T15:04:05` in UTC has that property for years 0000-9999; that part is not proved here.

=== FILE: map_sums.dfy ===
/**
  Sums over the values of a finite map, independent of any enumeration order
  of its keys. Used to count the details of a nested usage snapshot.
 */
module MapSums {

  /** The sum of `f` over the values of `m`, picking keys in an arbitrary order. */
  ghost function Sum<K(!new), V>(m: map<K, V>, f: V -> nat): nat
    decreases m.Keys
  {
    if m == map[] then 0
    else
      var k :| k in m;
      f(m[k]) + Sum(m - {k}, f)
  }

  /** Every element of `ks` is a key of `m`. */
  predicate Within<K, V>(ks: seq<K>, m: map<K, V>) {
    forall i :: 0 <= i < |ks| ==> ks[i] in m
  }

  /** The sum of `f` over the values that the keys `ks` select in `m`, in the order of `ks`. */
  ghost function SeqSum<K(!new), V>(ks: seq<K>, m: map<K, V>, f: V -> nat): nat
    requires Within(ks, m)
  {
    if ks == [] then 0 else f(m[ks[0]]) + SeqSum(ks[1..], m, f)
  }

  /** `ks` lists every key of `m` exactly once. */
  ghost predicate Enumerates<K(!new), V>(ks: seq<K>, m: map<K, V>) {
    && (forall i, j :: 0 <= i < j < |ks| ==> ks[i] != ks[j])
    && Within(ks, m)
    && (forall k :: k in m ==> k in ks)
  }

  /** Summing may start from any key: the choice made by `Sum` does not matter. */
  lemma {:induction false} SumRemove<K(!new), V>(m: map<K, V>, f: V -> nat, x: K)
    requires x in m
    ensures Sum(m, f) == f(m[x]) + Sum(m - {x}, f)
    decreases m.Keys
  {
    var k :| k in m && Sum(m, f) == f(m[k]) + Sum(m - {k}, f);
    if k != x {
      var mk, mx := m - {k}, m - {x};
      assert x in mk && k in mx;
      SumRemove(mk, f, x);
      SumRemove(mx, f, k);
      assert mk - {x} == mx - {k};
    }
  }

  /** Summing along an enumeration of the keys gives the order-free sum. */
  lemma {:induction false} SeqSumIsSum<K(!new), V>(ks: seq<K>, m: map<K, V>, f: V -> nat)
    requires Enumerates(ks, m)
    ensures SeqSum(ks, m, f) == Sum(m, f)
    decreases |ks|
  {
    if ks == [] {
      assert forall k :: k !in m;
      assert m == map[];
    } else {
      var x := ks[0];
      var rest := m - {x};
      assert Enumerates(ks[1..], rest) by {
        forall k ensures k in ks[1..] <==> k in rest {
          if k in ks[1..] {
            var i :| 1 <= i < |ks| && ks[i] == k;
            assert ks[0] != ks[i];
          }
          if k in rest {
            assert k in ks && k != ks[0];
          }
        }
      }
      SeqSumIsSum(ks[1..], rest, f);
      SeqSumRestrict(ks[1..], m, rest, f);
      SumRemove(m, f, x);
    }
  }

  /** `SeqSum` only looks at the keys it is given. */
  lemma {:induction false} SeqSumRestrict<K(!new), V>(ks: seq<K>, m: map<K, V>, m': map<K, V>, f: V -> nat)
    requires forall i :: 0 <= i < |ks| ==> ks[i] in m && ks[i] in m' && m[ks[i]] == m'[ks[i]]
    ensures SeqSum(ks, m, f) == SeqSum(ks, m', f)
    decreases |ks|
  {
    if ks != [] {
      SeqSumRestrict(ks[1..], m, m', f);
    }
  }

  /** Replacing (or adding) the value at one key changes the sum by the difference. */
  lemma SumUpdate<K(!new), V>(m: map<K, V>, f: V -> nat, x: K, v: V)
    ensures x in m ==> Sum(m[x := v], f) + f(m[x]) == Sum(m, f) + f(v)
    ensures x !in m ==> Sum(m[x := v], f) == Sum(m, f) + f(v)
  {
    var m' := m[x := v];
    SumRemove(m', f, x);
    assert m' - {x} == m - {x};
    if x in m {
      SumRemove(m, f, x);
    } else {
      assert m - {x} == m;
    }
  }
}

=== FILE: round_trip.dfy ===
/**
  Persisting a snapshot and loading it back. With a dedup key that tells
  distinct details apart and timestamps whose formatted text the parser
  reads back,
  `LoadAll` after `PersistSnapshot` on an empty table returns exactly the
  details that were persisted, whatever order Go ranged over the snapshot
  and whatever order the `SELECT` returned rows with equal timestamps.
 */
module RoundTrip {
  import opened Wrappers
  import opened UsageTypes
  import opened SnapshotWalk
  import opened SQLiteStore

  /** The timestamps of the snapshot's details. */
  ghost function SnapshotTimes(snap: StatisticsSnapshot): set<Time> {
    set x | x in Triples(snap) :: x.detail.timestamp
  }

  /**
    The nanosecond layout reads back the formatted text of each time in
    `ts`. Go's layouts do so for years 0000-9999 only: the parser reads
    exactly four year digits.
   */
  ghost predicate FormatReadsBack(h: Helpers, ts: set<Time>) {
    forall t :: t in ts ==> h.parseNano(h.format(t)) == Some(t)
  }

  /** A bucket of `Bucket` holds a detail exactly when some row of that API key and model loads as it. */
  lemma {:induction false} BucketMember(h: Helpers, rows: seq<Row>, a: string, m: string, d: RequestDetail)
    ensures d in Bucket(h, rows, a, m) <==>
      exists i :: 0 <= i < |rows| && rows[i].apiKey == a && rows[i].model == m && Decode(h, rows[i]) == Some(d)
    decreases |rows|
  {
    if rows != [] {
      BucketMember(h, rows[1..], a, m, d);
      if exists i :: 0 <= i < |rows| && rows[i].apiKey == a && rows[i].model == m && Decode(h, rows[i]) == Some(d) {
        var i :| 0 <= i < |rows| && rows[i].apiKey == a && rows[i].model == m && Decode(h, rows[i]) == Some(d);
        if i > 0 {
          assert rows[1..][i - 1] == rows[i];
        }
      }
      if d in Bucket(h, rows[1..], a, m) {
        var i :| 0 <= i < |rows[1..]| && rows[1..][i].apiKey == a && rows[1..][i].model == m && Decode(h, rows[1..][i]) == Some(d);
        assert rows[i + 1] == rows[1..][i];
      }
    }
  }

  /** The triples of a grouped cursor are the loadable rows, each with its API key and model. */
  lemma GroupTriples(h: Helpers, rows: seq<Row>, t: Triple)
    ensures t in Triples(Group(h, rows)) <==>
      exists i :: 0 <= i < |rows| && rows[i].apiKey == t.apiKey && rows[i].model == t.model
                  && Decode(h, rows[i]) == Some(t.detail)
  {
    GroupBuckets(h, rows);
    BucketMember(h, rows, t.apiKey, t.model, t.detail);
    var g := Group(h, rows);
    assert Lookup(g, t.apiKey, t.model) == Bucket(h, rows, t.apiKey, t.model);
    assert t in Triples(g) <==> InSnapshot(g, t);
  }

  /** Every row a persist added to an empty table is the row of one detail of the snapshot. */
  lemma PersistedRowOrigin(s: Option<Store>, h: Helpers, snap: StatisticsSnapshot, w: Walk, k: string)
      returns (x: Triple)
    requires ValidWalk(snap, w)
    requires Ready(s) && TableOf(s) == map[]
    requires PersistSnapshot(s, h, snap, w, NoFaults).err.None?
    requires k in TableOf(PersistSnapshot(s, h, snap, w, NoFaults).store)
    ensures x in Triples(snap) && KeyOf(h, x) == k
    ensures TableOf(PersistSnapshot(s, h, snap, w, NoFaults).store)[k] == RowOf(h, x)
  {
    var ts := Flatten(snap, w);
    FlattenContents(snap, w);
    x := AddedRowOrigin(TableOf(s), h, ts, k);
  }

  /** With keys that do not collide, each detail of the snapshot sits under its key as its own row. */
  lemma PersistedRowOf(s: Option<Store>, h: Helpers, snap: StatisticsSnapshot, w: Walk, x: Triple)
    requires ValidWalk(snap, w)
    requires Ready(s) && TableOf(s) == map[]
    requires KeyInjective(h, Triples(snap))
    requires x in Triples(snap)
    ensures var t := TableOf(PersistSnapshot(s, h, snap, w, NoFaults).store);
      KeyOf(h, x) in t && t[KeyOf(h, x)] == RowOf(h, x)
  {
    var t := TableOf(PersistSnapshot(s, h, snap, w, NoFaults).store);
    assert KeyOf(h, x) in SnapshotKeys(h, snap);
    var y := PersistedRowOrigin(s, h, snap, w, KeyOf(h, x));
  }

  /** Nothing is loaded that was not persisted. */
  lemma LoadedWasPersisted(s: Option<Store>, h: Helpers, snap: StatisticsSnapshot, w: Walk, rows: seq<Row>, x: Triple)
    requires ValidWalk(snap, w)
    requires Ready(s) && TableOf(s) == map[]
    requires FormatReadsBack(h, SnapshotTimes(snap))
    requires SelectedInOrder(TableOf(PersistSnapshot(s, h, snap, w, NoFaults).store), rows)
    requires x in Triples(Group(h, rows))
    ensures x in Triples(snap)
  {
    var k := LoadedRowKey(TableOf(PersistSnapshot(s, h, snap, w, NoFaults).store), h, rows, x);
    var y := PersistedRowOrigin(s, h, snap, w, k);
    assert y.detail.timestamp in SnapshotTimes(snap);
    RowRoundTrip(h, y.apiKey, y.model, y.detail);
    assert x == y;
  }

  /** A loaded triple comes from the table row under some key. */
  lemma LoadedRowKey(t: Table, h: Helpers, rows: seq<Row>, x: Triple) returns (k: string)
    requires SelectedInOrder(t, rows)
    requires x in Triples(Group(h, rows))
    ensures k in t && t[k].apiKey == x.apiKey && t[k].model == x.model && Decode(h, t[k]) == Some(x.detail)
  {
    GroupTriples(h, rows, x);
    var i :| 0 <= i < |rows| && rows[i].apiKey == x.apiKey && rows[i].model == x.model
             && Decode(h, rows[i]) == Some(x.detail);
    k := rows[i].dedupKey;
  }

  /** Everything persisted is loaded. */
  lemma PersistedIsLoaded(s: Option<Store>, h: Helpers, snap: StatisticsSnapshot, w: Walk, rows: seq<Row>, x: Triple)
    requires ValidWalk(snap, w)
    requires Ready(s) && TableOf(s) == map[]
    requires KeyInjective(h, Triples(snap))
    requires FormatReadsBack(h, SnapshotTimes(snap))
    requires SelectedInOrder(TableOf(PersistSnapshot(s, h, snap, w, NoFaults).store), rows)
    requires x in Triples(snap)
    ensures x in Triples(Group(h, rows))
  {
    PersistedRowOf(s, h, snap, w, x);
    var k := KeyOf(h, x);
    assert k in (set i | 0 <= i < |rows| :: rows[i].dedupKey);
    var i :| 0 <= i < |rows| && rows[i].dedupKey == k;
    assert rows[i] == RowOf(h, x);
    assert x.detail.timestamp in SnapshotTimes(snap);
    RowRoundTrip(h, x.apiKey, x.model, x.detail);
    GroupTriples(h, rows, x);
  }

  /** The loaded triples are among the persisted ones. */
  lemma LoadedSubset(s: Option<Store>, h: Helpers, snap: StatisticsSnapshot, w: Walk, rows: seq<Row>)
    requires ValidWalk(snap, w)
    requires Ready(s) && TableOf(s) == map[]
    requires FormatReadsBack(h, SnapshotTimes(snap))
    requires SelectedInOrder(TableOf(PersistSnapshot(s, h, snap, w, NoFaults).store), rows)
    ensures Triples(Group(h, rows)) <= Triples(snap)
  {
    forall x | x in Triples(Group(h, rows)) ensures x in Triples(snap) {
      LoadedWasPersisted(s, h, snap, w, rows, x);
    }
  }

  /** The persisted triples are among the loaded ones. */
  lemma PersistedSubset(s: Option<Store>, h: Helpers, snap: StatisticsSnapshot, w: Walk, rows: seq<Row>)
    requires ValidWalk(snap, w)
    requires Ready(s) && TableOf(s) == map[]
    requires KeyInjective(h, Triples(snap))
    requires FormatReadsBack(h, SnapshotTimes(snap))
    requires SelectedInOrder(TableOf(PersistSnapshot(s, h, snap, w, NoFaults).store), rows)
    ensures Triples(snap) <= Triples(Group(h, rows))
  {
    forall x | x in Triples(snap) ensures x in Triples(Group(h, rows)) {
      PersistedIsLoaded(s, h, snap, w, rows, x);
    }
  }

  /** A cursor that neither fails to scan nor to iterate loads as the grouping of all its rows. */
  lemma LoadFullCursor(s: Option<Store>, h: Helpers, rows: seq<Row>)
    requires Ready(s) && SelectedInOrder(TableOf(s), rows)
    ensures LoadAll(s, h, Cursor(rows, None, None)) == Loaded(Group(h, rows), None)
  {
    assert rows[..|rows|] == rows;
  }

  /**
    Loading what a persist wrote to an empty table gives back exactly the
    persisted details, each under its API key and model.
   */
  lemma PersistThenLoad(s: Option<Store>, h: Helpers, snap: StatisticsSnapshot, w: Walk, rows: seq<Row>)
    requires ValidWalk(snap, w)
    requires Ready(s) && TableOf(s) == map[]
    requires KeyInjective(h, Triples(snap))
    requires FormatReadsBack(h, SnapshotTimes(snap))
    requires SelectedInOrder(TableOf(PersistSnapshot(s, h, snap, w, NoFaults).store), rows)
    ensures LoadAll(PersistSnapshot(s, h, snap, w, NoFaults).store, h, Cursor(rows, None, None)) == Loaded(Group(h, rows), None)
    ensures Triples(Group(h, rows)) == Triples(snap)
  {
    var r := PersistSnapshot(s, h, snap, w, NoFaults);
    assert FirstFault(NoFaults, TotalDetails(snap)).None?;
    LoadFullCursor(r.store, h, rows);
    LoadedSubset(s, h, snap, w, rows);
    PersistedSubset(s, h, snap, w, rows);
  }

  /** Among the times `ts`, text order of the formatted times never puts a later time first. */
  ghost predicate FormatKeepsOrder(h: Helpers, ts: set<Time>) {
    forall t1, t2 :: t1 in ts && t2 in ts && TextLe(h.format(t1), h.format(t2)) ==> t1.instant <= t2.instant
  }

  /**
    Every row a persist wrote to an empty table loads, with one of the
    snapshot's times, and its text is the format of that time.
   */
  lemma PersistedRowTime(s: Option<Store>, h: Helpers, snap: StatisticsSnapshot, w: Walk, k: string)
    requires ValidWalk(snap, w)
    requires Ready(s) && TableOf(s) == map[]
    requires FormatReadsBack(h, SnapshotTimes(snap))
    requires PersistSnapshot(s, h, snap, w, NoFaults).err.None?
    requires k in TableOf(PersistSnapshot(s, h, snap, w, NoFaults).store)
    ensures var row := TableOf(PersistSnapshot(s, h, snap, w, NoFaults).store)[k];
      && Decode(h, row).Some?
      && Decode(h, row).value.timestamp in SnapshotTimes(snap)
      && row.timestamp == h.format(Decode(h, row).value.timestamp)
  {
    var y := PersistedRowOrigin(s, h, snap, w, k);
    assert y.detail.timestamp in SnapshotTimes(snap);
    RowRoundTrip(h, y.apiKey, y.model, y.detail);
  }

  /**
    When the snapshot's timestamps read back and their formatted texts sort
    as the times do, every bucket of a complete load of what a persist
    wrote to an empty table is in chronological order.
   */
  lemma ChronologicalBuckets(s: Option<Store>, h: Helpers, snap: StatisticsSnapshot, w: Walk, rows: seq<Row>,
                             a: string, m: string)
    requires ValidWalk(snap, w)
    requires Ready(s) && TableOf(s) == map[]
    requires FormatReadsBack(h, SnapshotTimes(snap)) && FormatKeepsOrder(h, SnapshotTimes(snap))
    requires SelectedInOrder(TableOf(PersistSnapshot(s, h, snap, w, NoFaults).store), rows)
    ensures var stored := PersistSnapshot(s, h, snap, w, NoFaults).store;
      var bucket := Lookup(LoadAll(stored, h, Cursor(rows, None, None)).snapshot, a, m);
      forall i, j :: 0 <= i < j < |bucket| ==> bucket[i].timestamp.instant <= bucket[j].timestamp.instant
  {
    var r := PersistSnapshot(s, h, snap, w, NoFaults);
    assert FirstFault(NoFaults, TotalDetails(snap)).None?;
    var q := Cursor(rows, None, None);
    var t := TableOf(r.store);
    LoadAllFromTable(r.store, h, q, a, m);
    var br := BucketRows(h, rows, a, m);
    var bucket := Lookup(LoadAll(r.store, h, q).snapshot, a, m);
    forall i | 0 <= i < |br|
      ensures bucket[i].timestamp in SnapshotTimes(snap) && br[i].timestamp == h.format(bucket[i].timestamp)
    {
      PersistedRowTime(s, h, snap, w, br[i].dedupKey);
    }
    OrderedTimes(h, SnapshotTimes(snap), br, bucket);
  }

  /** Rows in ascending text order whose texts format the details' times hold those times in ascending order. */
  lemma OrderedTimes(h: Helpers, ts: set<Time>, br: seq<Row>, bucket: seq<RequestDetail>)
    requires FormatKeepsOrder(h, ts) && |br| == |bucket|
    requires forall i :: 0 <= i < |bucket| ==> bucket[i].timestamp in ts
    requires forall i, j :: 0 <= i < j < |br| ==> TextLe(br[i].timestamp, br[j].timestamp)
    requires forall i :: 0 <= i < |br| ==> br[i].timestamp == h.format(bucket[i].timestamp)
    ensures forall i, j :: 0 <= i < j < |bucket| ==> bucket[i].timestamp.instant <= bucket[j].timestamp.instant
  {
    forall i, j | 0 <= i < j < |bucket| ensures bucket[i].timestamp.instant <= bucket[j].timestamp.instant {
      assert TextLe(h.format(bucket[i].timestamp), h.format(bucket[j].timestamp));
    }
  }
}

=== FILE: snapshot_walk.dfy ===
/**
  Ranging over a snapshot. Go visits the keys of a map in an unspecified
  order, so `PersistSnapshot` sees the snapshot as one of many flattenings;
  a `Walk` fixes the order of API keys and, per API key, the order of models.
  Details within a model are always visited in sequence order.
 */
module SnapshotWalk {
  import opened UsageTypes
  import opened MapSums

  datatype Walk = Walk(apiOrder: seq<string>, modelOrders: map<string, seq<string>>)

  /** `w` is an order in which Go's `range` could visit `snap`: every key exactly once. */
  ghost predicate ValidWalk(snap: StatisticsSnapshot, w: Walk) {
    && Enumerates(w.apiOrder, snap.apis)
    && forall a :: a in snap.apis ==>
         a in w.modelOrders && Enumerates(w.modelOrders[a], snap.apis[a].models)
  }

  /** The details of one model, tagged with their API key and model. */
  function Tag(apiKey: string, model: string, ds: seq<RequestDetail>): (r: seq<Triple>)
    ensures |r| == |ds|
    ensures forall i :: 0 <= i < |ds| ==> r[i] == Triple(apiKey, model, ds[i])
  {
    seq(|ds|, i requires 0 <= i < |ds| => Triple(apiKey, model, ds[i]))
  }

  function FlattenModels(apiKey: string, api: APISnapshot, order: seq<string>): seq<Triple>
    requires Within(order, api.models)
  {
    if order == [] then []
    else Tag(apiKey, order[0], api.models[order[0]].details) + FlattenModels(apiKey, api, order[1..])
  }

  function FlattenApis(snap: StatisticsSnapshot, order: seq<string>, modelOrders: map<string, seq<string>>): seq<Triple>
    requires Within(order, snap.apis) && Within(order, modelOrders)
    requires forall i :: 0 <= i < |order| ==> Within(modelOrders[order[i]], snap.apis[order[i]].models)
  {
    if order == [] then []
    else
      var a := order[0];
      FlattenModels(a, snap.apis[a], modelOrders[a]) + FlattenApis(snap, order[1..], modelOrders)
  }

  /** The sequence of (API key, model, detail) triples that the nested loops visit. */
  function Flatten(snap: StatisticsSnapshot, w: Walk): seq<Triple>
    requires ValidWalk(snap, w)
  {
    FlattenApis(snap, w.apiOrder, w.modelOrders)
  }

  lemma {:induction false} FlattenModelsContents(apiKey: string, api: APISnapshot, order: seq<string>, t: Triple)
    requires Within(order, api.models)
    ensures t in FlattenModels(apiKey, api, order) <==>
      t.apiKey == apiKey && t.model in order && t.detail in api.models[t.model].details
    decreases |order|
  {
    if order != [] {
      FlattenModelsContents(apiKey, api, order[1..], t);
      var head := Tag(apiKey, order[0], api.models[order[0]].details);
      assert t in head <==> t.apiKey == apiKey && t.model == order[0] && t.detail in api.models[order[0]].details by {
        if t in head {
          var i :| 0 <= i < |head| && head[i] == t;
        }
        if t.apiKey == apiKey && t.model == order[0] && t.detail in api.models[order[0]].details {
          var i :| 0 <= i < |api.models[order[0]].details| && api.models[order[0]].details[i] == t.detail;
          assert head[i] == t;
        }
      }
      assert t.model in order <==> t.model == order[0] || t.model in order[1..];
    }
  }

  lemma {:induction false} FlattenApisContents(snap: StatisticsSnapshot, order: seq<string>, modelOrders: map<string, seq<string>>, t: Triple)
    requires Within(order, snap.apis) && Within(order, modelOrders)
    requires forall i :: 0 <= i < |order| ==> Within(modelOrders[order[i]], snap.apis[order[i]].models)
    requires forall i :: 0 <= i < |order| ==> Enumerates(modelOrders[order[i]], snap.apis[order[i]].models)
    ensures t in FlattenApis(snap, order, modelOrders) <==> t.apiKey in order && InSnapshot(snap, t)
    decreases |order|
  {
    if order != [] {
      var a := order[0];
      FlattenModelsContents(a, snap.apis[a], modelOrders[a], t);
      FlattenApisContents(snap, order[1..], modelOrders, t);
      assert t.apiKey in order <==> t.apiKey == a || t.apiKey in order[1..];
    }
  }

  /** Every walk visits exactly the details of the snapshot, whatever its order. */
  lemma FlattenContents(snap: StatisticsSnapshot, w: Walk)
    requires ValidWalk(snap, w)
    ensures forall t :: t in Flatten(snap, w) <==> InSnapshot(snap, t)
    ensures forall t :: t in Flatten(snap, w) <==> t in Triples(snap)
  {
    forall t ensures t in Flatten(snap, w) <==> InSnapshot(snap, t) {
      FlattenApisContents(snap, w.apiOrder, w.modelOrders, t);
    }
  }

  lemma {:induction false} FlattenModelsLength(apiKey: string, api: APISnapshot, order: seq<string>)
    requires Within(order, api.models)
    ensures |FlattenModels(apiKey, api, order)| == SeqSum(order, api.models, ModelCount)
    decreases |order|
  {
    if order != [] {
      FlattenModelsLength(apiKey, api, order[1..]);
    }
  }

  lemma {:induction false} FlattenApisLength(snap: StatisticsSnapshot, order: seq<string>, modelOrders: map<string, seq<string>>)
    requires Within(order, snap.apis) && Within(order, modelOrders)
    requires forall i :: 0 <= i < |order| ==> Within(modelOrders[order[i]], snap.apis[order[i]].models)
    requires forall i :: 0 <= i < |order| ==> Enumerates(modelOrders[order[i]], snap.apis[order[i]].models)
    ensures |FlattenApis(snap, order, modelOrders)| == SeqSum(order, snap.apis, ApiCount)
    decreases |order|
  {
    if order != [] {
      var a := order[0];
      FlattenModelsLength(a, snap.apis[a], modelOrders[a]);
      SeqSumIsSum(modelOrders[a], snap.apis[a].models, ModelCount);
      FlattenApisLength(snap, order[1..], modelOrders);
    }
  }

  /** Every walk visits as many details as the snapshot holds, whatever its order. */
  lemma FlattenLength(snap: StatisticsSnapshot, w: Walk)
    requires ValidWalk(snap, w)
    ensures |Flatten(snap, w)| == TotalDetails(snap)
  {
    FlattenApisLength(snap, w.apiOrder, w.modelOrders);
    SeqSumIsSum(w.apiOrder, snap.apis, ApiCount);
  }
}

=== FILE: sqlite_plugin.dfy ===
/**
  The plugin bridge between the host's usage events and the store:
  `HandleUsage` turns one event into at most one insert request, and
  `LoadAndMerge` restores persisted history into the in-memory statistics.
 */
module SQLitePlugin {
  import opened Wrappers
  import opened UsageTypes
  import opened SQLiteStore

  /**
    The host's `coreusage.Record`. Its token breakdown is modelled with the
    same five counters as `TokenStats`; `normaliseDetail` maps it to the
    stored counters.
   */
  datatype Record = Record(
    requestedAt: Time,
    apiKey: string,
    model: string,
    source: string,
    authIndex: string,
    failed: bool,
    detail: TokenStats)

  /**
    The `SQLitePlugin` struct, generic over the type `S` of the in-memory
    `RequestStatistics`; `None` fields are nil pointers.
   */
  datatype Plugin<S> = Plugin(store: Option<Store>, stats: Option<S>)

  /**
    The helpers `HandleUsage` calls that are defined elsewhere, generic over
    the type `C` of the request context.
   */
  datatype BridgeEnv<-C> = BridgeEnv(
    normaliseDetail: TokenStats -> TokenStats,
    resolveApiIdentifier: (C, Record) -> string,
    resolveSuccess: C -> bool)

  /**
    The arguments of the `InsertRecord` call that `HandleUsage` dispatches on
    its own goroutine; the call itself runs against the plugin's store as it
    is when the goroutine gets to it.
   */
  datatype InsertRequest = InsertRequest(apiKey: string, model: string, detail: RequestDetail)

  /** The model name recorded when the event carries none. */
  const UnknownModel := "unknown"

  /**
    `HandleUsage`. `enabled` is the value of the process-wide statistics flag
    at the time of the call and `now` the value `time.Now()` would return.
   */
  function HandleUsage<S, C>(p: Option<Plugin<S>>, enabled: bool, ctx: C, record: Record,
                             now: Time, env: BridgeEnv<C>): (r: Option<InsertRequest>)
    ensures r.None? <==> p.None? || p.value.store.None? || !enabled
    ensures r.Some? ==>
      var req := r.value;
      && req.model != ""
      && (record.model != "" ==> req.model == record.model)
      && (record.model == "" ==> req.model == UnknownModel)
      && (record.apiKey != "" ==> req.apiKey == record.apiKey)
      && (record.apiKey == "" ==> req.apiKey == env.resolveApiIdentifier(ctx, record))
      && (req.detail.failed <==> record.failed || !env.resolveSuccess(ctx))
      && (!record.requestedAt.IsZero() ==> req.detail.timestamp == record.requestedAt)
      && (record.requestedAt.IsZero() ==> req.detail.timestamp == now)
      && req.detail.source == record.source
      && req.detail.authIndex == record.authIndex
      && req.detail.tokens == env.normaliseDetail(record.detail)
  {
    if p.None? || p.value.store.None? then None
    else if !enabled then None
    else
      var timestamp := if record.requestedAt.IsZero() then now else record.requestedAt;
      var tokens := env.normaliseDetail(record.detail);
      var apiKey := if record.apiKey == "" then env.resolveApiIdentifier(ctx, record) else record.apiKey;
      var failed := if record.failed then true else !env.resolveSuccess(ctx);
      var model := if record.model == "" then UnknownModel else record.model;
      Some(InsertRequest(apiKey, model,
                         RequestDetail(timestamp, record.source, record.authIndex, tokens, failed)))
  }

  /**
    The background write: `InsertRecord` on the plugin's live store `s`,
    with a fresh context. Its error is only logged, so the caller sees just
    the store afterwards.
   */
  function Dispatch(s: Option<Store>, req: InsertRequest, h: Helpers, execFails: bool): (r: Option<Store>)
    ensures execFails || !Ready(s) ==> r == s
    ensures !execFails && Ready(s) ==>
      var k := h.dedupKey(req.apiKey, req.model, req.detail);
      var t := TableOf(s);
      && Ready(r)
      && TableOf(r).Keys == t.Keys + {k}
      && (forall k' :: k' in t ==> TableOf(r)[k'] == t[k'])
      && (k !in t ==> TableOf(r)[k] == ToRow(h, req.apiKey, req.model, req.detail))
  {
    InsertRecord(s, h, req.apiKey, req.model, req.detail, execFails).store
  }

  /**
    Writes dispatched one after another accumulate: after two successful
    writes both dedup keys are stored and no earlier row is lost.
   */
  lemma DispatchesAccumulate(s: Option<Store>, req1: InsertRequest, req2: InsertRequest, h: Helpers)
    requires Ready(s)
    ensures var s2 := Dispatch(Dispatch(s, req1, h, false), req2, h, false);
      var k1 := h.dedupKey(req1.apiKey, req1.model, req1.detail);
      var k2 := h.dedupKey(req2.apiKey, req2.model, req2.detail);
      && Ready(s2)
      && TableOf(s2).Keys == TableOf(s).Keys + {k1, k2}
      && (forall k :: k in TableOf(s) ==> TableOf(s2)[k] == TableOf(s)[k])
  {
  }

  /**
    An event marked failed is stored as failed: the row under its dedup key
    has `failed = 1` once the dispatched write succeeds, unless an earlier
    delivery already stored that key.
   */
  lemma FailedEventStoredAsFailed<S, C>(p: Option<Plugin<S>>, ctx: C, record: Record, now: Time,
                                        env: BridgeEnv<C>, h: Helpers)
    requires p.Some? && Ready(p.value.store)
    requires record.failed
    ensures var req := HandleUsage(p, true, ctx, record, now, env).value;
      var k := h.dedupKey(req.apiKey, req.model, req.detail);
      k !in TableOf(p.value.store) ==> TableOf(Dispatch(p.value.store, req, h, false))[k].failed == 1
  {
  }

  /**
    Re-delivery of the same event through the same context at the same
    instant writes one row: the second write leaves the store as the first
    left it.
   */
  lemma RedeliveryStoredOnce<S, C>(p: Option<Plugin<S>>, ctx: C, record: Record, now: Time,
                                   env: BridgeEnv<C>, h: Helpers)
    requires p.Some? && Ready(p.value.store)
    ensures var req1 := HandleUsage(p, true, ctx, record, now, env).value;
      var req2 := HandleUsage(p, true, ctx, record, now, env).value;
      var once := Dispatch(p.value.store, req1, h, false);
      Dispatch(once, req2, h, false) == once
  {
  }

  /** The dedup key tells apart details of one API key and model that differ in their timestamp. */
  ghost predicate KeySeparatesTimes(h: Helpers) {
    forall a: string, m: string, d1: RequestDetail, d2: RequestDetail ::
      d1.timestamp != d2.timestamp ==> h.dedupKey(a, m, d1) != h.dedupKey(a, m, d2)
  }

  /**
    An event without a timestamp takes the time of handling, so two
    deliveries handled at different instants are stored as two rows by a
    dedup key that tells timestamps apart.
   */
  lemma UntimedRedeliveryStoredTwice<S, C>(p: Option<Plugin<S>>, ctx: C, record: Record, now1: Time, now2: Time,
                                           env: BridgeEnv<C>, h: Helpers)
    requires p.Some? && Ready(p.value.store)
    requires record.requestedAt.IsZero() && now1 != now2
    requires KeySeparatesTimes(h)
    ensures var req1 := HandleUsage(p, true, ctx, record, now1, env).value;
      var req2 := HandleUsage(p, true, ctx, record, now2, env).value;
      var k1 := h.dedupKey(req1.apiKey, req1.model, req1.detail);
      var k2 := h.dedupKey(req2.apiKey, req2.model, req2.detail);
      var t, t2 := TableOf(p.value.store), TableOf(Dispatch(Dispatch(p.value.store, req1, h, false), req2, h, false));
      && k1 != k2
      && k1 in t2 && k2 in t2
      && (k1 !in t && k2 !in t ==> |t2| == |t| + 2)
  {
    var req1 := HandleUsage(p, true, ctx, record, now1, env).value;
    var req2 := HandleUsage(p, true, ctx, record, now2, env).value;
    var k1 := h.dedupKey(req1.apiKey, req1.model, req1.detail);
    var k2 := h.dedupKey(req2.apiKey, req2.model, req2.detail);
    var t := TableOf(p.value.store);
    DispatchesAccumulate(p.value.store, req1, req2, h);
    assert k1 != k2;
    if k1 !in t && k2 !in t {
      assert t.Keys + {k1, k2} == t.Keys + {k1} + {k2};
    }
  }

  /** The counters `MergeSnapshot` reports. */
  datatype MergeResult = MergeResult(added: int, skipped: int)

  /** What `LoadAndMerge` did: nothing, failed with an error, or merged a loaded snapshot. */
  datatype Restore<S> =
    | NotRestored
    | RestoreFailed(err: StoreError)
    | Restored(stats: S, result: MergeResult)
  {
    /** The error value the Go function returns. */
    function Err(): Option<StoreError> {
      if RestoreFailed? then Some(err) else None
    }
  }

  /**
    `LoadAndMerge`. `q` is the cursor `LoadAll` reads and `merge` is
    `RequestStatistics.MergeSnapshot`, returning the updated statistics.
   */
  function LoadAndMerge<S>(p: Option<Plugin<S>>, h: Helpers, q: Query,
                           merge: (S, StatisticsSnapshot) -> (S, MergeResult)): (r: Restore<S>)
    requires p.Some? && Ready(p.value.store) && q.Cursor? ==> SelectedInOrder(TableOf(p.value.store), q.rows)
    ensures p.None? || p.value.store.None? || p.value.stats.None? ==> r == NotRestored
    ensures p.Some? && p.value.store.Some? && p.value.store.value.db.None? && p.value.stats.Some? ==>
      r == RestoreFailed(NotInitialized)
    ensures r.RestoreFailed? ==> Some(r.err) == LoadAll(p.value.store, h, q).err
    ensures r.Restored? ==>
      && p.Some? && Ready(p.value.store) && p.value.stats.Some?
      && q.Cursor? && Fetched(q.rows, q.scanFailsAt, q.iterFailsAt).err.None?
      && (r.stats, r.result) == merge(p.value.stats.value, Group(h, q.rows))
    ensures p.Some? && Ready(p.value.store) && p.value.stats.Some? ==>
      (r.Restored? <==> LoadAll(p.value.store, h, q).err.None?)
  {
    if p.None? || p.value.store.None? || p.value.stats.None? then NotRestored
    else
      var loaded := LoadAll(p.value.store, h, q);
      if loaded.err.Some? then RestoreFailed(loaded.err.value)
      else
        assert q.Cursor? ==> q.rows[..|q.rows|] == q.rows;
        var (stats, result) := merge(p.value.stats.value, loaded.snapshot);
        Restored(stats, result)
  }

  /**
    A load that stops part way (a scan or iteration error) is never merged:
    `LoadAndMerge` returns the error and the statistics stay untouched.
   */
  lemma PartialLoadNeverMerged<S>(p: Option<Plugin<S>>, h: Helpers, q: Query,
                                  merge: (S, StatisticsSnapshot) -> (S, MergeResult))
    requires p.Some? && p.value.store.Some? && p.value.stats.Some?
    requires Ready(p.value.store) && q.Cursor? ==> SelectedInOrder(TableOf(p.value.store), q.rows)
    requires q.Cursor? && Fetched(q.rows, q.scanFailsAt, q.iterFailsAt).err.Some?
    ensures LoadAndMerge(p, h, q, merge).RestoreFailed?
    ensures LoadAndMerge(p, h, q, merge).Err().Some?
  {
  }
}

=== FILE: sqlite_store.dfy ===
/**
  The SQLite-backed usage store: the `usage_records` table seen as a map from
  dedup key to row, and the store's operations on it. Every driver call that
  can fail is represented by an explicit fault argument; the table only
  changes when the operation reports success.
 */
module SQLiteStore {
  import opened Wrappers
  import opened UsageTypes
  import opened SnapshotWalk
  import MapSums

  /**
    The `SQLiteStore` struct. A `None` database is a handle that was never
    opened; a `None` pointer to a `Store` is a nil receiver. The file path
    field is not modelled.
   */
  datatype Store = Store(db: Option<Table>)

  /** The receiver is non-nil and holds an open database. */
  predicate Ready(s: Option<Store>) {
    s.Some? && s.value.db.Some?
  }

  function TableOf(s: Option<Store>): Table
    requires Ready(s)
  {
    s.value.db.value
  }

  /** An open store is determined by its table. */
  lemma SameTable(a: Option<Store>, b: Option<Store>)
    requires Ready(a) && Ready(b) && TableOf(a) == TableOf(b)
    ensures a == b
  {
  }

  /** A table that only grew by rows under keys it already had has not changed. */
  lemma NoNewKeys(t: Table, t': Table)
    requires t'.Keys <= t.Keys
    requires forall k :: k in t ==> k in t' && t'[k] == t[k]
    ensures t' == t
  {
  }

  /** The outcome of `NewSQLiteStore`: a store or an error, never both. */
  datatype Opened = Opened(store: Option<Store>, err: Option<StoreError>)

  /**
    Opening a store. `existing` is what the database file already holds and
    `openFails` covers every failure of home-directory expansion, directory
    creation and the driver's `sql.Open`.
   */
  function NewSQLiteStore(path: string, existing: Table, openFails: bool): (r: Opened)
    requires WellKeyed(existing)
    ensures path == "" ==> r.err == Some(EmptyPath) && r.store.None?
    ensures r.err.None? <==> path != "" && !openFails
    ensures r.err.None? ==> Ready(r.store) && TableOf(r.store) == existing && WellKeyed(TableOf(r.store))
    ensures r.err.Some? ==> r.store.None?
  {
    if path == "" then Opened(None, Some(EmptyPath))
    else if openFails then Opened(None, Some(OpenFailed))
    else Opened(Some(Store(Some(existing))), None)
  }

  /** Creating the schema; its DDL is idempotent and leaves existing rows alone. */
  function EnsureSchema(s: Option<Store>, ddlFails: bool): (r: Option<StoreError>)
    ensures !Ready(s) ==> r == Some(NotInitialized)
    ensures r.None? <==> Ready(s) && !ddlFails
  {
    if !Ready(s) then Some(NotInitialized)
    else if ddlFails then Some(SchemaFailed)
    else None
  }

  /** The row written for one detail: timestamp formatted, `failed` as 0 or 1, tokens verbatim. */
  function ToRow(h: Helpers, apiKey: string, model: string, d: RequestDetail): (r: Row)
    ensures r.dedupKey == h.dedupKey(apiKey, model, d)
    ensures r.failed == 1 <==> d.failed
    ensures r.failed == 0 <==> !d.failed
    ensures r.apiKey == apiKey && r.model == model
    ensures r.timestamp == h.format(d.timestamp)
    ensures r.source == d.source && r.authIndex == d.authIndex && r.tokens == d.tokens
  {
    Row(apiKey, model, h.format(d.timestamp), d.source, d.authIndex,
        if d.failed then 1 else 0, d.tokens, h.dedupKey(apiKey, model, d))
  }

  function RowOf(h: Helpers, t: Triple): Row {
    ToRow(h, t.apiKey, t.model, t.detail)
  }

  /** `INSERT OR IGNORE` against the unique index on `dedup_key`. */
  function InsertOrIgnore(t: Table, row: Row): (r: Table)
    ensures r.Keys == t.Keys + {row.dedupKey}
    ensures forall k :: k in t ==> r[k] == t[k]
    ensures row.dedupKey !in t ==> r[row.dedupKey] == row
    ensures WellKeyed(t) ==> WellKeyed(r)
  {
    if row.dedupKey in t then t else t[row.dedupKey := row]
  }

  /** The outcome of a single-statement write: the store afterwards and the error, if any. */
  datatype Exec = Exec(store: Option<Store>, err: Option<StoreError>)

  /**
    `InsertRecord`. `execFails` is a failure of the statement other than a
    duplicate key (which `INSERT OR IGNORE` turns into "no row").
   */
  function InsertRecord(s: Option<Store>, h: Helpers, apiKey: string, model: string,
                        d: RequestDetail, execFails: bool): (r: Exec)
    ensures !Ready(s) ==> r == Exec(s, Some(NotInitialized))
    ensures r.err.None? <==> Ready(s) && !execFails
    ensures r.err.Some? ==> r.store == s
    ensures r.err.None? && h.dedupKey(apiKey, model, d) in TableOf(s) ==> r.store == s
    ensures r.err.None? ==> Ready(r.store)
    ensures r.err.None? && h.dedupKey(apiKey, model, d) !in TableOf(s) ==>
      var k := h.dedupKey(apiKey, model, d);
      var t, t' := TableOf(s), TableOf(r.store);
      && t'.Keys == t.Keys + {k}
      && |t'| == |t| + 1
      && (forall k' :: k' in t ==> t'[k'] == t[k'])
      && t'[k].apiKey == apiKey && t'[k].model == model
      && t'[k].timestamp == h.format(d.timestamp)
      && t'[k].source == d.source && t'[k].authIndex == d.authIndex
      && (t'[k].failed == 1 <==> d.failed) && (t'[k].failed == 0 <==> !d.failed)
      && t'[k].tokens == d.tokens
  {
    if !Ready(s) then Exec(s, Some(NotInitialized))
    else if execFails then Exec(s, Some(InsertFailed))
    else Exec(Some(Store(Some(InsertOrIgnore(TableOf(s), ToRow(h, apiKey, model, d))))), None)
  }

  /** Delivering the same record twice leaves the table as one delivery does, without error. */
  lemma InsertRecordIdempotent(s: Option<Store>, h: Helpers, apiKey: string, model: string, d: RequestDetail)
    requires Ready(s)
    ensures var once := InsertRecord(s, h, apiKey, model, d, false);
      var twice := InsertRecord(once.store, h, apiKey, model, d, false);
      twice.err.None? && twice.store == once.store
  {
  }

  // ---------------------------------------------------------------------
  // PersistSnapshot
  // ---------------------------------------------------------------------

  /** The table and counters after a run of inserts. */
  datatype Tally = Tally(table: Table, added: nat, skipped: nat)

  /** The row that the first triple of `ts` carrying dedup key `k` produces. */
  function FirstRow(h: Helpers, ts: seq<Triple>, k: string): (r: Row)
    requires k in KeysOf(h, ts)
    ensures r.dedupKey == k
    ensures exists i :: 0 <= i < |ts| && r == RowOf(h, ts[i])
    decreases |ts|
  {
    if KeyOf(h, ts[0]) == k then RowOf(h, ts[0])
    else
      assert k in KeysOf(h, ts[1..]) by {
        var t :| t in ts && KeyOf(h, t) == k;
        assert t != ts[0];
        assert t in ts[1..];
      }
      var r := FirstRow(h, ts[1..], k);
      ghost var i :| 0 <= i < |ts[1..]| && r == RowOf(h, ts[1..][i]);
      assert r == RowOf(h, ts[i + 1]);
      r
  }

  lemma KeysOfCons(h: Helpers, ts: seq<Triple>)
    requires ts != []
    ensures KeysOf(h, ts) == {KeyOf(h, ts[0])} + KeysOf(h, ts[1..])
  {
    assert forall t :: t in ts <==> t == ts[0] || t in ts[1..];
  }

  /**
    The statement loop of `PersistSnapshot` over the triples `ts`: each
    insert either adds a row (affected rows > 0) or is ignored as a duplicate.
   */
  function InsertAll(t: Table, h: Helpers, ts: seq<Triple>): (r: Tally)
    ensures r.added + r.skipped == |ts|
    ensures r.table.Keys == t.Keys + KeysOf(h, ts)
    ensures forall k :: k in t ==> r.table[k] == t[k]
    ensures WellKeyed(t) ==> WellKeyed(r.table)
    decreases |ts|
  {
    if ts == [] then Tally(t, 0, 0)
    else
      var row := RowOf(h, ts[0]);
      var isNew := row.dedupKey !in t;
      var rest := InsertAll(InsertOrIgnore(t, row), h, ts[1..]);
      KeysOfCons(h, ts);
      Tally(rest.table, rest.added + (if isNew then 1 else 0), rest.skipped + (if isNew then 0 else 1))
  }

  /** A run of inserts adds exactly one row per dedup key not already in the table. */
  lemma {:induction false} InsertAllAdded(t: Table, h: Helpers, ts: seq<Triple>)
    ensures InsertAll(t, h, ts).added == |KeysOf(h, ts) - t.Keys|
    decreases |ts|
  {
    if ts == [] {
      assert KeysOf(h, ts) == {};
    } else {
      var k := KeyOf(h, ts[0]);
      var t1 := InsertOrIgnore(t, RowOf(h, ts[0]));
      InsertAllAdded(t1, h, ts[1..]);
      KeysOfCons(h, ts);
      NewKeysStep(t.Keys, k, KeysOf(h, ts[1..]));
    }
  }

  /** Counting new keys one key at a time. */
  lemma NewKeysStep(present: set<string>, k: string, tail: set<string>)
    ensures |({k} + tail) - present| == (if k in present then 0 else 1) + |tail - (present + {k})|
  {
    var rest := tail - (present + {k});
    if k in present {
      assert ({k} + tail) - present == rest;
    } else {
      assert ({k} + tail) - present == rest + {k};
    }
  }

  /** A row added by a run of inserts is the one of the first triple carrying its key. */
  lemma {:induction false} InsertAllRows(t: Table, h: Helpers, ts: seq<Triple>)
    ensures forall k :: k in InsertAll(t, h, ts).table && k !in t ==>
      k in KeysOf(h, ts) && InsertAll(t, h, ts).table[k] == FirstRow(h, ts, k)
    decreases |ts|
  {
    if ts != [] {
      var row := RowOf(h, ts[0]);
      var t1 := InsertOrIgnore(t, row);
      InsertAllRows(t1, h, ts[1..]);
      KeysOfCons(h, ts);
      var r := InsertAll(t, h, ts).table;
      forall k | k in r && k !in t
        ensures k in KeysOf(h, ts) && r[k] == FirstRow(h, ts, k)
      {
        if k == row.dedupKey {
          assert r[k] == t1[k] == row;
        } else {
          assert k !in t1;
        }
      }
    }
  }

  /**
    Where the transaction can fail: `BeginTx`, `PrepareContext`, the
    statement at a given position of the walk, or `Commit`.
   */
  datatype TxFaults = TxFaults(
    beginFails: bool,
    prepareFails: bool,
    insertFailsAt: Option<nat>,
    commitFails: bool)

  /** The statement at position `f.insertFailsAt` exists in a walk of `n` inserts. */
  predicate InsertFailsWithin(f: TxFaults, n: nat) {
    f.insertFailsAt.Some? && f.insertFailsAt.value < n
  }

  /**
    The error of a transaction of `n` inserts: the first step that fails, in
    the order begin, prepare, the inserts, commit.
   */
  function FirstFault(f: TxFaults, n: nat): Option<StoreError> {
    if f.beginFails then Some(BeginFailed)
    else if f.prepareFails then Some(PrepareFailed)
    else if InsertFailsWithin(f, n) then Some(InsertFailed)
    else if f.commitFails then Some(CommitFailed)
    else None
  }

  /** The outcome of the transaction on the table: the committed table, the counters, and the error. */
  datatype TxOutcome = TxOutcome(table: Table, added: nat, skipped: nat, err: Option<StoreError>)

  /**
    The transaction of `PersistSnapshot` over the visited triples `ts`: the
    table is returned unchanged unless the commit succeeds.
   */
  function Transact(t: Table, h: Helpers, ts: seq<Triple>, f: TxFaults): (r: TxOutcome)
    ensures r.err.Some? ==> r.table == t
    ensures r.err.Some? && r.err != Some(InsertFailed) ==> r.added == 0 && r.skipped == 0
    ensures r.err == Some(InsertFailed) ==>
      f.insertFailsAt.Some? && r.added + r.skipped == f.insertFailsAt.value < |ts|
    ensures r.err == FirstFault(f, |ts|)
    ensures r.err.None? ==> r.table == InsertAll(t, h, ts).table
    ensures r.err.None? ==>
      && r.added + r.skipped == |ts|
      && r.added == |KeysOf(h, ts) - t.Keys|
      && r.table.Keys == t.Keys + KeysOf(h, ts)
      && (forall k :: k in t ==> r.table[k] == t[k])
      && (WellKeyed(t) ==> WellKeyed(r.table))
  {
    if f.beginFails then TxOutcome(t, 0, 0, Some(BeginFailed))
    else if f.prepareFails then TxOutcome(t, 0, 0, Some(PrepareFailed))
    else if InsertFailsWithin(f, |ts|) then
      var done := InsertAll(t, h, ts[..f.insertFailsAt.value]);
      TxOutcome(t, done.added, done.skipped, Some(InsertFailed))
    else
      var done := InsertAll(t, h, ts);
      InsertAllAdded(t, h, ts);
      if f.commitFails then TxOutcome(t, 0, 0, Some(CommitFailed))
      else TxOutcome(done.table, done.added, done.skipped, None)
  }

  /** The outcome of `PersistSnapshot`: the store afterwards, the counters, and the error. */
  datatype Persisted = Persisted(store: Option<Store>, added: nat, skipped: nat, err: Option<StoreError>)

  /**
    `PersistSnapshot`: every detail of `snap`, in the order of the walk `w`,
    is inserted with `INSERT OR IGNORE` inside one transaction, which is
    rolled back unless it commits.
   */
  function PersistSnapshot(s: Option<Store>, h: Helpers, snap: StatisticsSnapshot, w: Walk, f: TxFaults): (r: Persisted)
    requires ValidWalk(snap, w)
    ensures !Ready(s) ==> r == Persisted(s, 0, 0, Some(NotInitialized))
    ensures r.err.Some? ==> r.store == s
    ensures r.err.Some? && r.err != Some(InsertFailed) ==> r.added == 0 && r.skipped == 0
    ensures r.err == Some(InsertFailed) ==>
      f.insertFailsAt.Some? && r.added + r.skipped == f.insertFailsAt.value < TotalDetails(snap)
    ensures r.err == if Ready(s) then FirstFault(f, TotalDetails(snap)) else Some(NotInitialized)
    ensures r.err.None? ==>
      && Ready(r.store)
      && r.added + r.skipped == TotalDetails(snap)
      && r.added == |SnapshotKeys(h, snap) - TableOf(s).Keys|
      && TableOf(r.store).Keys == TableOf(s).Keys + SnapshotKeys(h, snap)
      && (forall k :: k in TableOf(s) ==> TableOf(r.store)[k] == TableOf(s)[k])
      && (WellKeyed(TableOf(s)) ==> WellKeyed(TableOf(r.store)))
      && TableOf(r.store) == InsertAll(TableOf(s), h, Flatten(snap, w)).table
  {
    if !Ready(s) then Persisted(s, 0, 0, Some(NotInitialized))
    else
      FlattenLength(snap, w);
      FlattenContents(snap, w);
      assert KeysOf(h, Flatten(snap, w)) == SnapshotKeys(h, snap);
      var o := Transact(TableOf(s), h, Flatten(snap, w), f);
      if o.err.Some? then Persisted(s, o.added, o.skipped, o.err)
      else Persisted(Some(Store(Some(o.table))), o.added, o.skipped, None)
  }

  /** A transaction in which nothing fails. */
  const NoFaults := TxFaults(false, false, None, false)

  lemma PersistKnownTable(s: Option<Store>, h: Helpers, snap: StatisticsSnapshot, w: Walk)
    requires ValidWalk(snap, w)
    requires Ready(s) && SnapshotKeys(h, snap) <= TableOf(s).Keys
    ensures PersistSnapshot(s, h, snap, w, NoFaults).err.None?
    ensures TableOf(PersistSnapshot(s, h, snap, w, NoFaults).store) == TableOf(s)
  {
    var r := PersistSnapshot(s, h, snap, w, NoFaults);
    NoNewKeys(TableOf(s), TableOf(r.store));
  }

  /**
    Persisting a snapshot whose every dedup key is already stored adds
    nothing: every detail is skipped and the store is left as it was.
   */
  lemma PersistKnown(s: Option<Store>, h: Helpers, snap: StatisticsSnapshot, w: Walk)
    requires ValidWalk(snap, w)
    requires Ready(s) && SnapshotKeys(h, snap) <= TableOf(s).Keys
    ensures PersistSnapshot(s, h, snap, w, NoFaults) == Persisted(s, 0, TotalDetails(snap), None)
  {
    var r := PersistSnapshot(s, h, snap, w, NoFaults);
    PersistKnownTable(s, h, snap, w);
    SameTable(r.store, s);
    assert SnapshotKeys(h, snap) - TableOf(s).Keys == {};
  }

  /**
    Persisting the same snapshot a second time adds nothing: every detail is
    skipped and the table stays as the first call left it.
   */
  lemma PersistTwice(s: Option<Store>, h: Helpers, snap: StatisticsSnapshot, w1: Walk, w2: Walk)
    requires ValidWalk(snap, w1) && ValidWalk(snap, w2)
    requires PersistSnapshot(s, h, snap, w1, NoFaults).err.None?
    ensures var first := PersistSnapshot(s, h, snap, w1, NoFaults);
      PersistSnapshot(first.store, h, snap, w2, NoFaults) == Persisted(first.store, 0, TotalDetails(snap), None)
  {
    var first := PersistSnapshot(s, h, snap, w1, NoFaults);
    PersistKnown(first.store, h, snap, w2);
  }

  /** No two distinct triples of `ts` share a dedup key. */
  ghost predicate KeyInjective(h: Helpers, ts: set<Triple>) {
    forall t1, t2 :: t1 in ts && t2 in ts && KeyOf(h, t1) == KeyOf(h, t2) ==> t1 == t2
  }

  /** When keys do not collide, the first row carrying a key is the row of the only triple with it. */
  lemma FirstRowUnique(h: Helpers, ts: seq<Triple>, t: Triple)
    requires t in ts
    requires KeyInjective(h, set x | x in ts)
    ensures KeyOf(h, t) in KeysOf(h, ts)
    ensures FirstRow(h, ts, KeyOf(h, t)) == RowOf(h, t)
  {
    var k := KeyOf(h, t);
    var r := FirstRow(h, ts, k);
    var i :| 0 <= i < |ts| && r == RowOf(h, ts[i]);
    assert KeyOf(h, ts[i]) == k;
  }

  /**
    Two runs of inserts over the same triples in different orders build the
    same table when no two of the triples share a dedup key.
   */
  lemma InsertAllOrderFree(t: Table, h: Helpers, ts1: seq<Triple>, ts2: seq<Triple>)
    requires forall x :: x in ts1 <==> x in ts2
    requires KeyInjective(h, set x | x in ts1)
    ensures InsertAll(t, h, ts1).table == InsertAll(t, h, ts2).table
  {
    var a, b := InsertAll(t, h, ts1).table, InsertAll(t, h, ts2).table;
    SameKeys(h, ts1, ts2);
    forall k | k in a
      ensures k in b && a[k] == b[k]
    {
      SameRow(t, h, ts1, ts2, k);
    }
    NoNewKeys(a, b);
  }

  lemma SameKeys(h: Helpers, ts1: seq<Triple>, ts2: seq<Triple>)
    requires forall x :: x in ts1 <==> x in ts2
    ensures KeysOf(h, ts1) == KeysOf(h, ts2)
  {
  }

  /** A row that a run of inserts added is the row of one of the triples, carrying its key. */
  lemma AddedRowOrigin(t: Table, h: Helpers, ts: seq<Triple>, k: string) returns (x: Triple)
    requires k in InsertAll(t, h, ts).table && k !in t
    ensures x in ts && KeyOf(h, x) == k && InsertAll(t, h, ts).table[k] == RowOf(h, x)
  {
    InsertAllRows(t, h, ts);
    var i :| 0 <= i < |ts| && FirstRow(h, ts, k) == RowOf(h, ts[i]);
    x := ts[i];
  }

  lemma SameRow(t: Table, h: Helpers, ts1: seq<Triple>, ts2: seq<Triple>, k: string)
    requires forall x :: x in ts1 <==> x in ts2
    requires KeyInjective(h, set x | x in ts1)
    requires k in InsertAll(t, h, ts1).table
    ensures k in InsertAll(t, h, ts2).table
    ensures InsertAll(t, h, ts1).table[k] == InsertAll(t, h, ts2).table[k]
  {
    SameKeys(h, ts1, ts2);
    if k !in t {
      SameAddedRow(t, h, ts1, ts2, k);
    }
  }

  lemma SameAddedRow(t: Table, h: Helpers, ts1: seq<Triple>, ts2: seq<Triple>, k: string)
    requires forall x :: x in ts1 <==> x in ts2
    requires KeyInjective(h, set x | x in ts1)
    requires k !in t && k in InsertAll(t, h, ts1).table && k in InsertAll(t, h, ts2).table
    ensures InsertAll(t, h, ts1).table[k] == InsertAll(t, h, ts2).table[k]
  {
    var x := AddedRowOrigin(t, h, ts1, k);
    var y := AddedRowOrigin(t, h, ts2, k);
    assert x in (set z | z in ts1) && y in (set z | z in ts1);
  }

  /**
    The outcome of `PersistSnapshot` does not depend on the order in which Go
    ranges over the snapshot's maps: neither the error nor, on success, the
    counters and the set of stored keys.
   */
  lemma PersistCountsWalkFree(s: Option<Store>, h: Helpers, snap: StatisticsSnapshot, w1: Walk, w2: Walk, f: TxFaults)
    requires ValidWalk(snap, w1) && ValidWalk(snap, w2)
    ensures var r1, r2 := PersistSnapshot(s, h, snap, w1, f), PersistSnapshot(s, h, snap, w2, f);
      && r1.err == r2.err
      && (r1.err.None? ==> r1.added == r2.added && r1.skipped == r2.skipped)
      && (r1.err.None? ==> TableOf(r1.store).Keys == TableOf(r2.store).Keys)
  {
  }

  /** When no two details of the snapshot share a dedup key, the stored rows do not depend on the order either. */
  lemma PersistTableWalkFree(s: Option<Store>, h: Helpers, snap: StatisticsSnapshot, w1: Walk, w2: Walk)
    requires ValidWalk(snap, w1) && ValidWalk(snap, w2)
    requires KeyInjective(h, Triples(snap))
    requires PersistSnapshot(s, h, snap, w1, NoFaults).err.None?
    ensures PersistSnapshot(s, h, snap, w1, NoFaults).store == PersistSnapshot(s, h, snap, w2, NoFaults).store
  {
    var r1, r2 := PersistSnapshot(s, h, snap, w1, NoFaults), PersistSnapshot(s, h, snap, w2, NoFaults);
    WalksAgree(snap, w1, w2);
    WalkInjective(h, snap, w1);
    InsertAllOrderFree(TableOf(s), h, Flatten(snap, w1), Flatten(snap, w2));
    SameTable(r1.store, r2.store);
  }

  lemma WalksAgree(snap: StatisticsSnapshot, w1: Walk, w2: Walk)
    requires ValidWalk(snap, w1) && ValidWalk(snap, w2)
    ensures forall x :: x in Flatten(snap, w1) <==> x in Flatten(snap, w2)
  {
    FlattenContents(snap, w1);
    FlattenContents(snap, w2);
  }

  lemma WalkInjective(h: Helpers, snap: StatisticsSnapshot, w: Walk)
    requires ValidWalk(snap, w)
    requires KeyInjective(h, Triples(snap))
    ensures KeyInjective(h, set x | x in Flatten(snap, w))
  {
    FlattenContents(snap, w);
    assert (set x | x in Flatten(snap, w)) == Triples(snap);
  }

  // ---------------------------------------------------------------------
  // LoadAll
  // ---------------------------------------------------------------------

  /**
    Text order under SQLite's default BINARY collation: byte-wise on UTF-8,
    which orders strings as their code points do.
   */
  predicate TextLe(a: string, b: string)
    decreases |a|
  {
    a == [] || (b != [] && (a[0] < b[0] || (a[0] == b[0] && TextLe(a[1..], b[1..]))))
  }

  /**
    `rows` is what `SELECT ... ORDER BY timestamp ASC` returns for table `t`:
    every row of the table exactly once, ascending by timestamp text.
   */
  ghost predicate SelectedInOrder(t: Table, rows: seq<Row>) {
    && (forall i :: 0 <= i < |rows| ==> rows[i].dedupKey in t && t[rows[i].dedupKey] == rows[i])
    && (forall i, j :: 0 <= i < j < |rows| ==> rows[i].dedupKey != rows[j].dedupKey)
    && (forall k :: k in t ==> k in (set i | 0 <= i < |rows| :: rows[i].dedupKey))
    && (forall i, j :: 0 <= i < j < |rows| ==> TextLe(rows[i].timestamp, rows[j].timestamp))
  }

  /** The stored timestamp under the nanosecond layout, else the second-precision layout. */
  function ParseTimestamp(h: Helpers, text: string): (r: Option<Time>)
    ensures h.parseNano(text).Some? ==> r == h.parseNano(text)
    ensures h.parseNano(text).None? ==> r == h.parseSeconds(text)
  {
    match h.parseNano(text)
    case Some(t) => Some(t)
    case None => h.parseSeconds(text)
  }

  /** The detail a row loads as; `None` when its timestamp parses under neither layout. */
  function Decode(h: Helpers, row: Row): (r: Option<RequestDetail>)
    ensures r.None? <==> h.parseNano(row.timestamp).None? && h.parseSeconds(row.timestamp).None?
    ensures r.Some? ==>
      && Some(r.value.timestamp) == ParseTimestamp(h, row.timestamp)
      && r.value.source == row.source && r.value.authIndex == row.authIndex
      && r.value.tokens == row.tokens
      && (r.value.failed <==> row.failed != 0)
  {
    match ParseTimestamp(h, row.timestamp)
    case None => None
    case Some(ts) => Some(RequestDetail(ts, row.source, row.authIndex, row.tokens, row.failed != 0))
  }

  /** A row written for a detail loads back as that detail when formatting round-trips. */
  lemma RowRoundTrip(h: Helpers, apiKey: string, model: string, d: RequestDetail)
    requires h.parseNano(h.format(d.timestamp)) == Some(d.timestamp)
    ensures Decode(h, ToRow(h, apiKey, model, d)) == Some(d)
  {
  }

  /** Appending a detail to bucket `APIs[apiKey].Models[model]`, creating the bucket when missing. */
  function Place(snap: StatisticsSnapshot, apiKey: string, model: string, d: RequestDetail): StatisticsSnapshot {
    var api := if apiKey in snap.apis then snap.apis[apiKey] else APISnapshot(map[]);
    var bucket := if model in api.models then api.models[model] else ModelSnapshot([]);
    StatisticsSnapshot(snap.apis[apiKey := APISnapshot(api.models[model := ModelSnapshot(bucket.details + [d])])])
  }

  /** The row loop of `LoadAll`: rows in cursor order, unparsable ones skipped. */
  function Group(h: Helpers, rows: seq<Row>): StatisticsSnapshot
    decreases |rows|
  {
    if rows == [] then EmptySnapshot()
    else
      var prev := Group(h, rows[..|rows| - 1]);
      var row := rows[|rows| - 1];
      match Decode(h, row)
      case None => prev
      case Some(d) => Place(prev, row.apiKey, row.model, d)
  }

  /** Reference definition: the loadable details of `rows` with this API key and model, in order. */
  function Bucket(h: Helpers, rows: seq<Row>, apiKey: string, model: string): seq<RequestDetail>
    decreases |rows|
  {
    if rows == [] then []
    else
      var here := if rows[0].apiKey == apiKey && rows[0].model == model && Decode(h, rows[0]).Some?
                  then [Decode(h, rows[0]).value] else [];
      here + Bucket(h, rows[1..], apiKey, model)
  }

  /** Reference definition: how many rows of `rows` have a parsable timestamp. */
  function Loadable(h: Helpers, rows: seq<Row>): nat
    decreases |rows|
  {
    if rows == [] then 0
    else (if Decode(h, rows[0]).Some? then 1 else 0) + Loadable(h, rows[1..])
  }

  lemma {:induction false} BucketSnoc(h: Helpers, rows: seq<Row>, row: Row, apiKey: string, model: string)
    ensures Bucket(h, rows + [row], apiKey, model) ==
      Bucket(h, rows, apiKey, model)
      + (if row.apiKey == apiKey && row.model == model && Decode(h, row).Some? then [Decode(h, row).value] else [])
    decreases |rows|
  {
    if rows != [] {
      assert (rows + [row])[1..] == rows[1..] + [row];
      BucketSnoc(h, rows[1..], row, apiKey, model);
    }
  }

  lemma {:induction false} LoadableSnoc(h: Helpers, rows: seq<Row>, row: Row)
    ensures Loadable(h, rows + [row]) == Loadable(h, rows) + (if Decode(h, row).Some? then 1 else 0)
    decreases |rows|
  {
    if rows != [] {
      assert (rows + [row])[1..] == rows[1..] + [row];
      LoadableSnoc(h, rows[1..], row);
    }
  }

  /** Every API key of the snapshot has a model, and every model bucket has a detail. */
  ghost predicate NoEmptyBuckets(snap: StatisticsSnapshot) {
    forall a :: a in snap.apis ==>
      snap.apis[a].models != map[] &&
      forall m :: m in snap.apis[a].models ==> snap.apis[a].models[m].details != []
  }

  /** Adding one detail to a bucket adds one to the snapshot's total. */
  lemma PlaceCount(snap: StatisticsSnapshot, apiKey: string, model: string, d: RequestDetail)
    ensures TotalDetails(Place(snap, apiKey, model, d)) == TotalDetails(snap) + 1
  {
    var api := if apiKey in snap.apis then snap.apis[apiKey] else APISnapshot(map[]);
    var bucket := if model in api.models then api.models[model] else ModelSnapshot([]);
    var api' := APISnapshot(api.models[model := ModelSnapshot(bucket.details + [d])]);
    MapSums.SumUpdate(api.models, ModelCount, model, ModelSnapshot(bucket.details + [d]));
    assert ApiCount(api') == ApiCount(api) + 1;
    MapSums.SumUpdate(snap.apis, ApiCount, apiKey, api');
    if apiKey !in snap.apis {
      assert ApiCount(api) == 0;
    }
  }

  /** The details in bucket `APIs[apiKey].Models[model]`, or none when it is missing. */
  function Lookup(snap: StatisticsSnapshot, apiKey: string, model: string): seq<RequestDetail> {
    if apiKey in snap.apis && model in snap.apis[apiKey].models
    then snap.apis[apiKey].models[model].details
    else []
  }

  lemma PlaceLookup(snap: StatisticsSnapshot, apiKey: string, model: string, d: RequestDetail)
    ensures forall a, m :: Lookup(Place(snap, apiKey, model, d), a, m) ==
                           Lookup(snap, a, m) + (if a == apiKey && m == model then [d] else [])
  {
  }

  lemma PlaceNonEmpty(snap: StatisticsSnapshot, apiKey: string, model: string, d: RequestDetail)
    requires NoEmptyBuckets(snap)
    ensures NoEmptyBuckets(Place(snap, apiKey, model, d))
  {
  }

  /**
    Grouping keeps, in bucket `APIs[a].Models[m]`, exactly the loadable rows
    of API key `a` and model `m`, in cursor order, and creates no empty bucket.
   */
  lemma {:induction false} GroupBuckets(h: Helpers, rows: seq<Row>)
    ensures forall a, m :: Lookup(Group(h, rows), a, m) == Bucket(h, rows, a, m)
    decreases |rows|
  {
    if rows != [] {
      var init, row := rows[..|rows| - 1], rows[|rows| - 1];
      assert rows == init + [row];
      GroupBuckets(h, init);
      BucketsSnoc(h, init, row);
      if Decode(h, row).Some? {
        PlaceLookup(Group(h, init), row.apiKey, row.model, Decode(h, row).value);
      }
    }
  }

  lemma BucketsSnoc(h: Helpers, rows: seq<Row>, row: Row)
    ensures forall a, m :: Bucket(h, rows + [row], a, m) ==
                           Bucket(h, rows, a, m)
                           + (if row.apiKey == a && row.model == m && Decode(h, row).Some? then [Decode(h, row).value] else [])
  {
    forall a, m {
      BucketSnoc(h, rows, row, a, m);
    }
  }

  /** Grouping never creates an empty API snapshot or an empty model bucket. */
  lemma {:induction false} GroupNonEmpty(h: Helpers, rows: seq<Row>)
    ensures NoEmptyBuckets(Group(h, rows))
    decreases |rows|
  {
    if rows != [] {
      var init, row := rows[..|rows| - 1], rows[|rows| - 1];
      GroupNonEmpty(h, init);
      if Decode(h, row).Some? {
        PlaceNonEmpty(Group(h, init), row.apiKey, row.model, Decode(h, row).value);
      }
    }
  }

  /** Grouping counts every loadable row once. */
  lemma {:induction false} GroupCount(h: Helpers, rows: seq<Row>)
    ensures TotalDetails(Group(h, rows)) == Loadable(h, rows)
    decreases |rows|
  {
    if rows == [] {
      assert TotalDetails(Group(h, rows)) == 0;
    } else {
      var init, row := rows[..|rows| - 1], rows[|rows| - 1];
      assert rows == init + [row];
      GroupCount(h, init);
      LoadableSnoc(h, init, row);
      if Decode(h, row).Some? {
        PlaceCount(Group(h, init), row.apiKey, row.model, Decode(h, row).value);
      }
    }
  }

  /**
    The grouping loses nothing but unparsable rows: each bucket holds exactly
    the loadable rows of its API key and model in cursor order, a bucket
    exists exactly when it is non-empty, and the total is the number of
    loadable rows.
   */
  lemma GroupSpec(h: Helpers, rows: seq<Row>)
    ensures forall a, m :: (a in Group(h, rows).apis && m in Group(h, rows).apis[a].models) <==>
      Bucket(h, rows, a, m) != []
    ensures forall a, m :: a in Group(h, rows).apis && m in Group(h, rows).apis[a].models ==>
      Group(h, rows).apis[a].models[m].details == Bucket(h, rows, a, m)
    ensures NoEmptyBuckets(Group(h, rows))
    ensures TotalDetails(Group(h, rows)) == Loadable(h, rows)
  {
    GroupBuckets(h, rows);
    GroupNonEmpty(h, rows);
    GroupCount(h, rows);
    var g := Group(h, rows);
    forall a, m ensures (a in g.apis && m in g.apis[a].models) <==> Bucket(h, rows, a, m) != [] {
      assert Lookup(g, a, m) == Bucket(h, rows, a, m);
    }
  }

  /** Reference definition: the loadable rows of `rows` with this API key and model, in order. */
  function BucketRows(h: Helpers, rows: seq<Row>, apiKey: string, model: string): seq<Row>
    decreases |rows|
  {
    if rows == [] then []
    else
      var here := if rows[0].apiKey == apiKey && rows[0].model == model && Decode(h, rows[0]).Some?
                  then [rows[0]] else [];
      here + BucketRows(h, rows[1..], apiKey, model)
  }

  /** The details of a bucket are the decodings of its rows, one for one. */
  lemma {:induction false} BucketRowsDecode(h: Helpers, rows: seq<Row>, a: string, m: string)
    ensures |Bucket(h, rows, a, m)| == |BucketRows(h, rows, a, m)|
    ensures forall i :: 0 <= i < |BucketRows(h, rows, a, m)| ==>
      Decode(h, BucketRows(h, rows, a, m)[i]) == Some(Bucket(h, rows, a, m)[i])
    decreases |rows|
  {
    if rows != [] {
      BucketRowsDecode(h, rows[1..], a, m);
    }
  }

  /** A bucket's rows are the cursor's loadable rows of its API key and model. */
  lemma {:induction false} BucketRowsMember(h: Helpers, rows: seq<Row>, a: string, m: string, x: Row)
    ensures x in BucketRows(h, rows, a, m) <==> x in rows && x.apiKey == a && x.model == m && Decode(h, x).Some?
    decreases |rows|
  {
    if rows != [] {
      BucketRowsMember(h, rows[1..], a, m, x);
      assert rows == [rows[0]] + rows[1..];
    }
  }

  /** A bucket keeps the cursor's distinct dedup keys and its ascending timestamp text. */
  lemma {:induction false} BucketRowsOrdered(h: Helpers, rows: seq<Row>, a: string, m: string)
    requires forall i, j :: 0 <= i < j < |rows| ==> rows[i].dedupKey != rows[j].dedupKey
    requires forall i, j :: 0 <= i < j < |rows| ==> TextLe(rows[i].timestamp, rows[j].timestamp)
    ensures var br := BucketRows(h, rows, a, m);
      forall i, j :: 0 <= i < j < |br| ==>
        br[i].dedupKey != br[j].dedupKey && TextLe(br[i].timestamp, br[j].timestamp)
    decreases |rows|
  {
    if rows != [] {
      var tail := rows[1..];
      BucketRowsOrdered(h, tail, a, m);
      var br, rest := BucketRows(h, rows, a, m), BucketRows(h, tail, a, m);
      forall j | 0 <= j < |rest|
        ensures rows[0].dedupKey != rest[j].dedupKey && TextLe(rows[0].timestamp, rest[j].timestamp)
      {
        BucketRowsMember(h, tail, a, m, rest[j]);
        var k :| 0 <= k < |tail| && tail[k] == rest[j];
        assert rows[k + 1] == rest[j];
      }
    }
  }

  /** The dedup keys of the rows of `rows` whose timestamp parses. */
  ghost function LoadableKeysOf(h: Helpers, rows: seq<Row>): set<string> {
    set x | x in rows && Decode(h, x).Some? :: x.dedupKey
  }

  /** The dedup keys of the table's rows whose timestamp parses. */
  ghost function LoadableKeys(h: Helpers, t: Table): set<string> {
    set k | k in t && Decode(h, t[k]).Some?
  }

  /** With distinct dedup keys, the loadable rows are counted by their keys. */
  lemma {:induction false} LoadableDistinct(h: Helpers, rows: seq<Row>)
    requires forall i, j :: 0 <= i < j < |rows| ==> rows[i].dedupKey != rows[j].dedupKey
    ensures Loadable(h, rows) == |LoadableKeysOf(h, rows)|
    decreases |rows|
  {
    if rows != [] {
      var tail := rows[1..];
      LoadableDistinct(h, tail);
      LoadableKeysOfCons(h, rows);
      if Decode(h, rows[0]).Some? {
        assert rows[0].dedupKey !in LoadableKeysOf(h, tail) by {
          forall x | x in tail ensures x.dedupKey != rows[0].dedupKey {
            var k :| 0 <= k < |tail| && tail[k] == x;
            assert rows[k + 1] == x;
          }
        }
      }
    }
  }

  lemma {:induction false} LoadableKeysOfCons(h: Helpers, rows: seq<Row>)
    requires rows != []
    ensures LoadableKeysOf(h, rows) ==
      (if Decode(h, rows[0]).Some? then {rows[0].dedupKey} else {}) + LoadableKeysOf(h, rows[1..])
  {
    assert rows == [rows[0]] + rows[1..];
  }

  /**
    The cursor of the `SELECT`: a query error, or the rows SQLite returns
    together with the position of the row whose `rows.Scan` fails and the
    position before which `rows.Next` stops with an error that `rows.Err`
    then reports (`Some(|rows|)` is an error after the last row).
   */
  datatype Query =
    | QueryError
    | Cursor(rows: seq<Row>, scanFailsAt: Option<nat>, iterFailsAt: Option<nat>)

  /** The snapshot `LoadAll` returns (possibly partial) and its error. */
  datatype Loaded = Loaded(snapshot: StatisticsSnapshot, err: Option<StoreError>)

  /** How many rows the row loop reads, and how it ends. */
  datatype Fetch = Fetch(count: nat, err: Option<StoreError>)

  /**
    The row loop's progress. A failing `rows.Next` before row i stops the
    loop before that row is scanned; otherwise the first failing scan stops
    it; otherwise every row is read.
   */
  function Fetched(rows: seq<Row>, scanFailsAt: Option<nat>, iterFailsAt: Option<nat>): (r: Fetch)
    ensures r.count <= |rows|
    ensures r.err.None? <==>
      (scanFailsAt.None? || scanFailsAt.value >= |rows|) && (iterFailsAt.None? || iterFailsAt.value > |rows|)
    ensures r.err.None? ==> r.count == |rows|
    ensures r.err == Some(IterationFailed) <==>
      iterFailsAt.Some? && iterFailsAt.value <= |rows| && (scanFailsAt.None? || iterFailsAt.value <= scanFailsAt.value)
    ensures r.err == Some(IterationFailed) ==> r.count == iterFailsAt.value
    ensures r.err.Some? && r.err != Some(IterationFailed) ==>
      r.err == Some(ScanFailed) && scanFailsAt.Some? && r.count == scanFailsAt.value < |rows|
  {
    var iter := iterFailsAt.Some? && iterFailsAt.value <= |rows|;
    var scan := scanFailsAt.Some? && scanFailsAt.value < |rows|;
    if iter && (!scan || iterFailsAt.value <= scanFailsAt.value) then Fetch(iterFailsAt.value, Some(IterationFailed))
    else if scan then Fetch(scanFailsAt.value, Some(ScanFailed))
    else Fetch(|rows|, None)
  }

  /**
    `LoadAll`. The cursor holds the table's rows in `ORDER BY timestamp`
    order. The rows read before an error are kept in the returned snapshot,
    as the Go function returns the snapshot built so far.
   */
  function LoadAll(s: Option<Store>, h: Helpers, q: Query): (r: Loaded)
    requires Ready(s) && q.Cursor? ==> SelectedInOrder(TableOf(s), q.rows)
    ensures !Ready(s) ==> r == Loaded(EmptySnapshot(), Some(NotInitialized))
    ensures Ready(s) && q.QueryError? ==> r == Loaded(EmptySnapshot(), Some(QueryFailed))
    ensures Ready(s) && q.Cursor? ==>
      var f := Fetched(q.rows, q.scanFailsAt, q.iterFailsAt);
      var loaded := q.rows[..f.count];
      && r.err == f.err
      && r.snapshot == Group(h, loaded)
      && (forall a, m :: (a in r.snapshot.apis && m in r.snapshot.apis[a].models) <==>
            Bucket(h, loaded, a, m) != [])
      && (forall a, m :: a in r.snapshot.apis && m in r.snapshot.apis[a].models ==>
            r.snapshot.apis[a].models[m].details == Bucket(h, loaded, a, m))
      && NoEmptyBuckets(r.snapshot)
      && TotalDetails(r.snapshot) == Loadable(h, loaded)
  {
    if !Ready(s) then Loaded(EmptySnapshot(), Some(NotInitialized))
    else match q
      case QueryError => Loaded(EmptySnapshot(), Some(QueryFailed))
      case Cursor(rows, scanFailsAt, iterFailsAt) =>
        var f := Fetched(rows, scanFailsAt, iterFailsAt);
        GroupSpec(h, rows[..f.count]);
        Loaded(Group(h, rows[..f.count]), f.err)
  }

  /** A complete load groups every row of the cursor. */
  lemma LoadAllComplete(s: Option<Store>, h: Helpers, q: Query)
    requires Ready(s) && q.Cursor? && SelectedInOrder(TableOf(s), q.rows)
    requires LoadAll(s, h, q).err.None?
    ensures LoadAll(s, h, q).snapshot == Group(h, q.rows)
  {
    assert q.rows[..|q.rows|] == q.rows;
  }

  /**
    The rows of a bucket, taken from a cursor that selects table `t` in
    order, are exactly the table's loadable rows of that API key and model,
    each once, ascending by stored timestamp text.
   */
  lemma BucketRowsOfTable(t: Table, h: Helpers, rows: seq<Row>, a: string, m: string)
    requires SelectedInOrder(t, rows)
    ensures var br := BucketRows(h, rows, a, m);
      && (forall i :: 0 <= i < |br| ==> br[i].dedupKey in t && t[br[i].dedupKey] == br[i])
      && (forall k :: k in t && t[k].apiKey == a && t[k].model == m && Decode(h, t[k]).Some? <==>
            exists i :: 0 <= i < |br| && br[i].dedupKey == k)
      && (forall i, j :: 0 <= i < j < |br| ==> br[i].dedupKey != br[j].dedupKey)
      && (forall i, j :: 0 <= i < j < |br| ==> TextLe(br[i].timestamp, br[j].timestamp))
  {
    var br := BucketRows(h, rows, a, m);
    BucketRowsOrdered(h, rows, a, m);
    forall i | 0 <= i < |br| ensures br[i].dedupKey in t && t[br[i].dedupKey] == br[i] {
      BucketRowsMember(h, rows, a, m, br[i]);
    }
    forall k ensures k in t && t[k].apiKey == a && t[k].model == m && Decode(h, t[k]).Some? <==>
                     exists i :: 0 <= i < |br| && br[i].dedupKey == k
    {
      BucketRowsKey(t, h, rows, a, m, k);
    }
  }

  lemma BucketRowsKey(t: Table, h: Helpers, rows: seq<Row>, a: string, m: string, k: string)
    requires SelectedInOrder(t, rows)
    ensures var br := BucketRows(h, rows, a, m);
      k in t && t[k].apiKey == a && t[k].model == m && Decode(h, t[k]).Some? <==>
      exists i :: 0 <= i < |br| && br[i].dedupKey == k
  {
    var br := BucketRows(h, rows, a, m);
    if k in t && t[k].apiKey == a && t[k].model == m && Decode(h, t[k]).Some? {
      assert k in (set j | 0 <= j < |rows| :: rows[j].dedupKey);
      var j :| 0 <= j < |rows| && rows[j].dedupKey == k;
      BucketRowsMember(h, rows, a, m, rows[j]);
      var i :| 0 <= i < |br| && br[i] == rows[j];
    }
    if exists i :: 0 <= i < |br| && br[i].dedupKey == k {
      var i :| 0 <= i < |br| && br[i].dedupKey == k;
      BucketRowsMember(h, rows, a, m, br[i]);
    }
  }

  /**
    A complete load places every table row whose timestamp parses exactly
    once: bucket `APIs[a].Models[m]` decodes, one for one, the table's
    loadable rows of API key `a` and model `m`, without repeats and
    ascending by stored timestamp text.
   */
  lemma LoadAllFromTable(s: Option<Store>, h: Helpers, q: Query, a: string, m: string)
    requires Ready(s) && q.Cursor? && SelectedInOrder(TableOf(s), q.rows)
    requires LoadAll(s, h, q).err.None?
    ensures var t, br := TableOf(s), BucketRows(h, q.rows, a, m);
      var bucket := Lookup(LoadAll(s, h, q).snapshot, a, m);
      && |bucket| == |br|
      && (forall i :: 0 <= i < |br| ==> Decode(h, br[i]) == Some(bucket[i]))
      && (forall i :: 0 <= i < |br| ==> br[i].dedupKey in t && t[br[i].dedupKey] == br[i])
      && (forall k :: k in t && t[k].apiKey == a && t[k].model == m && Decode(h, t[k]).Some? <==>
            exists i :: 0 <= i < |br| && br[i].dedupKey == k)
      && (forall i, j :: 0 <= i < j < |br| ==> br[i].dedupKey != br[j].dedupKey)
      && (forall i, j :: 0 <= i < j < |br| ==> TextLe(br[i].timestamp, br[j].timestamp))
  {
    LoadAllComplete(s, h, q);
    GroupBuckets(h, q.rows);
    BucketRowsDecode(h, q.rows, a, m);
    BucketRowsOfTable(TableOf(s), h, q.rows, a, m);
  }

  /** A complete load holds as many details as the table has rows whose timestamp parses. */
  lemma LoadAllCount(s: Option<Store>, h: Helpers, q: Query)
    requires Ready(s) && q.Cursor? && SelectedInOrder(TableOf(s), q.rows)
    requires LoadAll(s, h, q).err.None?
    ensures TotalDetails(LoadAll(s, h, q).snapshot) == |LoadableKeys(h, TableOf(s))|
  {
    var t, rows := TableOf(s), q.rows;
    LoadAllComplete(s, h, q);
    GroupCount(h, rows);
    LoadableDistinct(h, rows);
    assert LoadableKeysOf(h, rows) == LoadableKeys(h, t) by {
      forall k ensures k in LoadableKeysOf(h, rows) <==> k in LoadableKeys(h, t) {
        if k in LoadableKeys(h, t) {
          assert k in (set j | 0 <= j < |rows| :: rows[j].dedupKey);
          var j :| 0 <= j < |rows| && rows[j].dedupKey == k;
          assert rows[j] in rows;
        }
      }
    }
  }

  // ---------------------------------------------------------------------
  // Close
  // ---------------------------------------------------------------------

  /** `Close`: a nil or never-opened handle closes without error; otherwise the driver decides. */
  function Close(s: Option<Store>, closeFails: bool): (r: Option<StoreError>)
    ensures !Ready(s) ==> r.None?
    ensures r.Some? <==> Ready(s) && closeFails
  {
    if !Ready(s) then None
    else if closeFails then Some(CloseFailed)
    else None
  }
}

=== FILE: time_text.dfy ===
/**
  The text of a stored timestamp within one second, and how SQLite orders it.

  Go's `time.RFC3339Nano` layout writes the fraction of a second with its
  trailing zeros removed, and no fraction at all for a whole second. The
  part before the fraction, "2006-01-02T15:04:05", is fixed-width, so text
  order follows time across different seconds; within one second the
  trimmed fraction makes text order disagree with time. A fixed-width
  fraction of nine digits restores it.
 */
module TimeText {
  import opened SQLiteStore

  function Pow10(n: nat): nat {
    if n == 0 then 1 else 10 * Pow10(n - 1)
  }

  /** One more than the largest nanosecond count within a second. */
  const NanosPerSecond: nat := 1_000_000_000

  function DigitChar(d: nat): (c: char)
    requires d < 10
    ensures '0' <= c <= '9'
  {
    ('0' as int + d) as char
  }

  /** The `w` decimal digits of `n`, zero-padded, most significant first. */
  function Digits(n: nat, w: nat): (r: string)
    requires n < Pow10(w)
    ensures |r| == w
    decreases w
  {
    if w == 0 then [] else Digits(n / 10, w - 1) + [DigitChar(n % 10)]
  }

  /** Drops the trailing zeros of a digit string. */
  function TrimZeros(s: string): (r: string)
    ensures |r| <= |s| && r == s[..|r|]
    ensures r == [] || r[|r| - 1] != '0'
    decreases |s|
  {
    if s != [] && s[|s| - 1] == '0' then TrimZeros(s[..|s| - 1]) else s
  }

  function Zeros(k: nat): (r: string)
    ensures |r| == k
  {
    seq(k, _ => '0')
  }

  /** Trimming a digit followed only by zeros leaves the digit. */
  lemma {:induction false} TrimZerosPadded(d: char, k: nat)
    requires d != '0'
    ensures TrimZeros([d] + Zeros(k)) == [d]
    decreases k
  {
    if k > 0 {
      var s := [d] + Zeros(k);
      assert s[|s| - 1] == '0';
      assert s[..|s| - 1] == [d] + Zeros(k - 1);
      TrimZerosPadded(d, k - 1);
    }
  }

  /** The fraction `time.RFC3339Nano` writes for `ns` nanoseconds: none for zero, else trimmed. */
  function NanoFraction(ns: nat): string
    requires ns < NanosPerSecond
  {
    if ns == 0 then "" else "." + TrimZeros(Digits(ns, 9))
  }

  /** The stored UTC text of the instant `ns` nanoseconds into the second written as `second`. */
  function TrimmedStamp(second: string, ns: nat): string
    requires ns < NanosPerSecond
  {
    second + NanoFraction(ns) + "Z"
  }

  /** A fixed-width fraction of nine digits, then the UTC designator. */
  function FixedFraction(ns: nat): string
    requires ns < NanosPerSecond
  {
    "." + Digits(ns, 9) + "Z"
  }

  /** The same instant with the fixed-width fraction. */
  function FixedStamp(second: string, ns: nat): string
    requires ns < NanosPerSecond
  {
    second + FixedFraction(ns)
  }

  lemma {:induction false} TextLeRefl(x: string)
    ensures TextLe(x, x)
    decreases |x|
  {
    if x != [] {
      TextLeRefl(x[1..]);
    }
  }

  /** A common prefix does not change text order. */
  lemma {:induction false} TextLePrefix(p: string, x: string, y: string)
    ensures TextLe(p + x, p + y) <==> TextLe(x, y)
    decreases |p|
  {
    if p == [] {
      assert p + x == x && p + y == y;
    } else {
      assert (p + x)[0] == p[0] == (p + y)[0];
      assert (p + x)[1..] == p[1..] + x;
      assert (p + y)[1..] == p[1..] + y;
      TextLePrefix(p[1..], x, y);
    }
  }

  /** Two texts of one length, each extended by one character, compare at their first difference. */
  lemma {:induction false} TextLeSnoc(x: string, y: string, c: char, d: char)
    requires |x| == |y|
    ensures TextLe(x + [c], y + [d]) <==> (x != y && TextLe(x, y)) || (x == y && c <= d)
    decreases |x|
  {
    if x == [] {
      assert [c][1..] == [] && [d][1..] == [];
    } else {
      assert (x + [c])[1..] == x[1..] + [c];
      assert (y + [d])[1..] == y[1..] + [d];
      TextLeSnoc(x[1..], y[1..], c, d);
      assert x == [x[0]] + x[1..];
      assert y == [y[0]] + y[1..];
      if x == y {
        TextLeRefl(x);
      }
    }
  }

  /** Fixed-width digit strings compare as the numbers they write. */
  lemma {:induction false} DigitsOrder(a: nat, b: nat, w: nat)
    requires a < Pow10(w) && b < Pow10(w)
    ensures Digits(a, w) == Digits(b, w) <==> a == b
    ensures TextLe(Digits(a, w), Digits(b, w)) <==> a <= b
    decreases w
  {
    if w > 0 {
      DigitsOrder(a / 10, b / 10, w - 1);
      var x, y := Digits(a / 10, w - 1), Digits(b / 10, w - 1);
      var c, d := DigitChar(a % 10), DigitChar(b % 10);
      TextLeSnoc(x, y, c, d);
      assert x + [c] == y + [d] ==> x == y && c == d by {
        if x + [c] == y + [d] {
          assert (x + [c])[..w - 1] == x && (y + [d])[..w - 1] == y;
          assert (x + [c])[w - 1] == c && (y + [d])[w - 1] == d;
        }
      }
    }
  }

  /**
    Go's trimmed `RFC3339Nano` fraction: within one second, the text of the
    instant half a second in sorts before that of the whole second, so
    `ORDER BY timestamp` returns the later row first.
   */
  lemma TrimmedStampOutOfOrder(second: string)
    ensures TextLe(TrimmedStamp(second, 500_000_000), TrimmedStamp(second, 0))
    ensures !TextLe(TrimmedStamp(second, 0), TrimmedStamp(second, 500_000_000))
  {
    assert Digits(500_000_000, 9) == "500000000";
    assert "500000000" == ['5'] + Zeros(8);
    TrimZerosPadded('5', 8);
    assert TrimmedStamp(second, 500_000_000) == second + ".5Z";
    assert TrimmedStamp(second, 0) == second + "Z";
    TextLePrefix(second, ".5Z", "Z");
    TextLePrefix(second, "Z", ".5Z");
  }

  /** A fixed nine-digit fraction: text order within a second is time order. */
  lemma FixedStampChronological(second: string, ns1: nat, ns2: nat)
    requires ns1 < NanosPerSecond && ns2 < NanosPerSecond
    ensures TextLe(FixedStamp(second, ns1), FixedStamp(second, ns2)) <==> ns1 <= ns2
  {
    TextLePrefix(second, FixedFraction(ns1), FixedFraction(ns2));
    FixedFractionOrder(ns1, ns2);
  }

  lemma FixedFractionOrder(ns1: nat, ns2: nat)
    requires ns1 < NanosPerSecond && ns2 < NanosPerSecond
    ensures TextLe(FixedFraction(ns1), FixedFraction(ns2)) <==> ns1 <= ns2
  {
    var x, y := Digits(ns1, 9), Digits(ns2, 9);
    DigitsOrder(ns1, ns2, 9);
    assert FixedFraction(ns1) == "." + (x + "Z");
    assert FixedFraction(ns2) == "." + (y + "Z");
    TextLePrefix(".", x + "Z", y + "Z");
    TextLeSnoc(x, y, 'Z', 'Z');
  }

  /** Once two texts of one length differ, what follows them does not change their order. */
  lemma {:induction false} TextLeDiffering(x: string, y: string, a: string, b: string)
    requires |x| == |y| && x != y
    ensures TextLe(x + a, y + b) <==> TextLe(x, y)
    decreases |x|
  {
    assert (x + a)[0] == x[0] && (y + b)[0] == y[0];
    if x[0] == y[0] {
      assert (x + a)[1..] == x[1..] + a;
      assert (y + b)[1..] == y[1..] + b;
      TextLeDiffering(x[1..], y[1..], a, b);
    }
  }

  /**
    A fixed nine-digit fraction after whole-second texts of one width: two
    stamps compare as their seconds do when those differ, and as their
    nanoseconds do within one second.
   */
  lemma FixedStampOrder(second1: string, second2: string, ns1: nat, ns2: nat)
    requires |second1| == |second2|
    requires ns1 < NanosPerSecond && ns2 < NanosPerSecond
    ensures TextLe(FixedStamp(second1, ns1), FixedStamp(second2, ns2)) <==>
      (second1 != second2 && TextLe(second1, second2)) || (second1 == second2 && ns1 <= ns2)
  {
    if second1 == second2 {
      FixedStampChronological(second1, ns1, ns2);
    } else {
      FixedStampSeconds(second1, second2, ns1, ns2);
    }
  }

  lemma FixedStampSeconds(second1: string, second2: string, ns1: nat, ns2: nat)
    requires |second1| == |second2| && second1 != second2
    requires ns1 < NanosPerSecond && ns2 < NanosPerSecond
    ensures TextLe(FixedStamp(second1, ns1), FixedStamp(second2, ns2)) <==> TextLe(second1, second2)
  {
    TextLeDiffering(second1, second2, FixedFraction(ns1), FixedFraction(ns2));
  }
}

=== FILE: usage_types.dfy ===
/**
  The data model shared by the usage store and the plugin bridge: request
  details, the nested statistics snapshot, the persisted row, and the helper
  functions that the store relies on but that live outside the two files
  modelled here.
 */
module UsageTypes {
  import opened Wrappers
  import MapSums

  /**
    A point in time, as nanoseconds since Go's zero time (00:00 UTC on
    January 1 of year 1), so that `time.Time.IsZero` is `instant == 0`.
   */
  datatype Time = Time(instant: int) {
    predicate IsZero() {
      instant == 0
    }
  }

  /** Token counts of one request; the store copies all five as given. */
  datatype TokenStats = TokenStats(
    inputTokens: int,
    outputTokens: int,
    reasoningTokens: int,
    cachedTokens: int,
    totalTokens: int)

  /** One usage event in its storable shape. */
  datatype RequestDetail = RequestDetail(
    timestamp: Time,
    source: string,
    authIndex: string,
    tokens: TokenStats,
    failed: bool)

  /** The details of one model, in insertion (or load) order. */
  datatype ModelSnapshot = ModelSnapshot(details: seq<RequestDetail>)

  /** The models used through one API key. */
  datatype APISnapshot = APISnapshot(models: map<string, ModelSnapshot>)

  /** The whole aggregate: API key, then model name, then details. */
  datatype StatisticsSnapshot = StatisticsSnapshot(apis: map<string, APISnapshot>)

  /** A snapshot with no API keys, as `LoadAll` starts from. */
  function EmptySnapshot(): (r: StatisticsSnapshot)
    ensures r.apis == map[]
  {
    StatisticsSnapshot(map[])
  }

  /** One (API key, model, detail) element of a snapshot. */
  datatype Triple = Triple(apiKey: string, model: string, detail: RequestDetail)

  /** `t` is one of the details stored in `snap`. */
  predicate InSnapshot(snap: StatisticsSnapshot, t: Triple) {
    && t.apiKey in snap.apis
    && t.model in snap.apis[t.apiKey].models
    && t.detail in snap.apis[t.apiKey].models[t.model].details
  }

  /** The set of triples a snapshot holds (duplicates within a bucket collapse). */
  ghost function Triples(snap: StatisticsSnapshot): set<Triple> {
    set a, m, d | a in snap.apis && m in snap.apis[a].models && d in snap.apis[a].models[m].details
      :: Triple(a, m, d)
  }

  ghost function ModelCount(ms: ModelSnapshot): nat {
    |ms.details|
  }

  /** Number of details across all models of one API key. */
  ghost function ApiCount(api: APISnapshot): nat {
    MapSums.Sum(api.models, ModelCount)
  }

  /** Number of details across all API keys and models of a snapshot. */
  ghost function TotalDetails(snap: StatisticsSnapshot): nat {
    MapSums.Sum(snap.apis, ApiCount)
  }

  /**
    One row of the `usage_records` table. The auto-increment `id` and the
    server-assigned `created_at` columns are not modelled.
   */
  datatype Row = Row(
    apiKey: string,
    model: string,
    timestamp: string,
    source: string,
    authIndex: string,
    failed: int,
    tokens: TokenStats,
    dedupKey: string)

  /** The table, indexed by its unique `dedup_key` column. */
  type Table = map<string, Row>

  /** Every row sits under its own dedup key. */
  predicate WellKeyed(t: Table) {
    forall k :: k in t ==> t[k].dedupKey == k
  }

  /**
    Functions the store calls that are defined elsewhere: the dedup key
    derivation, `Format(time.RFC3339Nano)` of a UTC time, and the two
    `time.Parse` layouts (nanosecond and second precision).
   */
  datatype Helpers = Helpers(
    dedupKey: (string, string, RequestDetail) -> string,
    format: Time -> string,
    parseNano: string -> Option<Time>,
    parseSeconds: string -> Option<Time>)

  function KeyOf(h: Helpers, t: Triple): string {
    h.dedupKey(t.apiKey, t.model, t.detail)
  }

  /** The dedup keys of a sequence of triples. */
  ghost function KeysOf(h: Helpers, ts: seq<Triple>): set<string> {
    set t | t in ts :: KeyOf(h, t)
  }

  /** The dedup keys of all triples of a snapshot. */
  ghost function SnapshotKeys(h: Helpers, snap: StatisticsSnapshot): set<string> {
    set t | t in Triples(snap) :: KeyOf(h, t)
  }

  /** The error outcomes of the store; driver failures are not distinguished further. */
  datatype StoreError =
    | EmptyPath
    | OpenFailed
    | NotInitialized
    | SchemaFailed
    | InsertFailed
    | QueryFailed
    | ScanFailed
    | IterationFailed
    | BeginFailed
    | PrepareFailed
    | CommitFailed
    | CloseFailed
}

=== FILE: wrappers.dfy ===
/** The optional value used for Go's nil pointers and for partial functions. */
module Wrappers {

  datatype Option<+T> = None | Some(value: T)
}
